=== FILE: README.md ===
# homegraph readings core, modelled in Dafny

homegraph is a home-sensor API. Devices post batches of sensor readings, and clients page through a device's readings newest first. This project models the part of the API that does the work:

- **the reading service** (`api/services/readingService.js`), which has three operations:
  - `addReadings`: validate a batch, insert it in one transaction and read the inserted rows back;
  - `getReadings`: the `count` newest readings;
  - `getReadingsByDevice`: a filtered, paginated and sensor-joined listing with `total`, `totalPages` and `currentPage`.
- **the `validateRequiredParams` middleware** (`api/middlewares/validateRequiredParams.js`), which answers 400 with the list of missing query or body parameters.

Modules, one concept each:

- `Wrappers`: `Option` and `Result`.
- `JsValues`: JavaScript values, truthiness, and property access. Property access on `undefined` or `null` throws a TypeError.
- `Text`: `Array.prototype.join`, and counting `?` placeholders in SQL text.
- `Store`: the `readings` and `sensors` tables, and the auto-increment invariant. Also:
  - the store calls an operation makes, recorded as a trace;
  - the errors an operation surfaces;
  - `SELECT ... WHERE reading_id BETWEEN`;
  - `ORDER BY timestamp DESC`.
- `Ingestion`: `addReadings`.
- `Pagination`: coercing `page` and `limit`, the offset, `Math.ceil` for the page count, and LIMIT/OFFSET slices.
- `QueryPlan`: building the WHERE clauses, the bound parameters and the SQL text, and what the filter means.
- `Retrieval`: `getReadings` and `getReadingsByDevice`.
- `RequiredParams`: the middleware.

How the database is modelled:

- The database is a value `Db`. An operation takes one and, for `addReadings`, returns the new one.
- Faults are a parameter: the set of store calls that fail.
- Every operation also returns the sequence of store calls it made. This is how its contract states that:
  - the connection is always released, exactly once;
  - a failed transaction is rolled back;
  - a malformed request never reaches the database.

## Model

| member | source | states |
|---|---|---|
| Ingestion.AddReadings | api/services/readingService.js:27-87 | Succeeds exactly when all of these hold: the request has a truthy `device_id` and a non-empty `values` array; every item defines `sensor_id` and `value`; every item's sensor exists; no store call it makes fails. On success the committed table grows by exactly the returned rows: consecutive ids from the counter, one per item in order, with the request's device id. On failure the committed table is unchanged. If every stored reading names an existing sensor, that stays true. A bad request shape makes no store call at all: 400, or a TypeError for an undefined/null request. A malformed item makes exactly connect, begin, rollback, release. After a store fault the error re-thrown is the rollback's when the rollback fails. Otherwise it is the first failing call's, in the order connect, begin, insert (which also fails on an unknown sensor), read-back, range select, commit. A failure carries status 400 exactly when the request shape is rejected, or when an item that is not undefined/null is rejected while connect, begin and rollback succeed. The connection is released exactly once whenever it was acquired; on failure it is rolled back; on success it is committed and not rolled back. |
| Ingestion.Transact | api/services/readingService.js:37-86 | The part after validation: connect, begin, map the items, insert and commit. It keeps the same all-or-nothing, foreign-key, rollback and single-release guarantees. It re-throws the same error: the connect failure when there is no connection, else the rollback's when the rollback fails, else the first failing call's or the first malformed item's. |
| Ingestion.InsertAndCommit | api/services/readingService.js:56-86 | Insert, read back the first id and count, select the id range, and commit. The table grows by exactly the returned batch, or does not change. The insert fails when a row's sensor does not exist. A failure re-throws the first failing call's error, or the rollback's when the rollback fails. The trace starts with the insert and ends with the only release. |
| Ingestion.AfterRollback | api/services/readingService.js:81-83 | The `catch` block surfaces the error it caught or the rollback's own. It surfaces the caught one exactly when the rollback succeeds or the caught error is the rollback's. |
| Ingestion.RowsToInsert | api/services/readingService.js:44-52 | `values.map(...)` succeeds if and only if every item defines both fields. Each row is `[device_id, sensor_id, value]` of the item at the same index. On failure the error belongs to the first malformed item: a TypeError for an undefined/null item, else 400. |
| Ingestion.ItemError | api/services/readingService.js:45-49 | A malformed item raises a TypeError exactly when reading `sensor_id` from it throws. Otherwise the error carries status 400. |
| Ingestion.ReadBackIsBatch | api/services/readingService.js:75-77 | Selecting `reading_id` from `firstId` to `firstId + count - 1` returns exactly the batch just inserted: nothing older, nothing missing. |
| Ingestion.AppendKeepsValid | api/services/readingService.js:56-57 | Appending the batch keeps ids increasing and below the auto-increment counter. |
| Ingestion.FinishBatch | api/services/readingService.js:66-80 | With zero affected rows, only a commit happens and the result is the empty list. Otherwise there is a range select and then a commit. The error is always that of the last, failing call. |
| Store.SelectIdRangeMembers | api/services/readingService.js:76-77 | The range select returns exactly the rows whose id lies in the closed range. |
| Store.SelectIdRangeBelow | api/services/readingService.js:76-77 | A range that starts above every row's id selects nothing. |
| Store.SelectIdRangeAll | api/services/readingService.js:76-77 | A range that holds every row's id selects all rows, in order. |
| Store.SelectIdRangeAppend | api/services/readingService.js:76-77 | The range select distributes over concatenation of tables, so it keeps table order. |
| Store.SessionReleasedOnce | api/services/readingService.js:17-19 | A connection obtained and then released in `finally`, with no release in between, is released exactly once and last. |
| Store.SortNewestFirst | api/services/readingService.js:139 | For any way the store ranks equal timestamps, `ORDER BY timestamp DESC` yields a permutation of its input. Timestamps are non-increasing, and ties follow the store's ranking. |
| Store.NewestFirstUnique | api/services/readingService.js:139 | When no two readings share a timestamp, any two newest-first orders of the same readings are equal. |
| Retrieval.GetReadings | api/services/readingService.js:8-20 | Succeeds exactly when the connection and query succeed and `parseInt(count)` is a number from 0 to 2^64−1, the store's LIMIT range. NaN, a negative count or a larger one is refused. On success it returns `min(count, table size)` rows, newest first, all from the table, for any ranking of ties. Every returned reading is at least as new as every one left out. The connection is released once. |
| Pagination.OrDefault | api/services/readingService.js:104-105 | `parseInt(x) \|\| d` yields the parsed number when it is truthy by JavaScript's rules, and `d` otherwise. So NaN and 0 fall back, and any other integer, negatives included, is kept. |
| Pagination.PageNumber | api/services/readingService.js:104 | The page number is never 0. It is 1 exactly when the page is absent, NaN, 0 or 1. |
| Pagination.LimitNumber | api/services/readingService.js:105 | The page size is never 0. It is 60 exactly when the limit is absent, NaN, 0 or 60. |
| Pagination.Offset | api/services/readingService.js:106 | For a positive page size, `(pageNum - 1) * limitNum` is non-negative exactly when the page is at least 1. The first page starts at 0. |
| Pagination.TotalPages | api/services/readingService.js:131 | `Math.ceil(total / limit)` is the least page count whose pages hold `total` rows. It is zero exactly when there are no rows. |
| Pagination.Slice | api/services/readingService.js:140-142 | `LIMIT n OFFSET k` keeps the rows from position k on, at most n of them, in order. |
| Pagination.PagesPartition | api/services/readingService.js:106 | Pages 1 to `totalPages` of any listing concatenate to the listing: no row skipped, none repeated. |
| Pagination.PastLastPage | api/services/readingService.js:106 | A page after the last one is empty. |
| Pagination.ConcatOfPages | api/services/readingService.js:140-142 | Fetching each page on its own and concatenating gives the same rows as slicing the listing. |
| QueryPlan.BuildFilter | api/services/readingService.js:108-123 | `whereClauses` and `params` stay the same length: one to four entries, the device condition with `deviceId` first. |
| QueryPlan.FilterComposition | api/services/readingService.js:108-123 | The device clause always comes first. Each optional clause is present exactly when its option is set (start, end, truthy sensor id). Clauses keep the source's order. The parameter at each position is the value that clause binds. |
| QueryPlan.PlaceholdersMatchParams | api/services/readingService.js:125-142 | The count query and the page query each hold as many `?` placeholders as there are values bound to them. |
| QueryPlan.FilterMeaning | api/services/readingService.js:108-123 | A reading satisfies the built WHERE clause exactly when the device matches, the timestamp is at least the start and before the end, and (if given) the sensor matches. An undefined or null bound value matches nothing. |
| QueryPlan.SelectIsWanted | api/services/readingService.js:128-129 | Filtering with the built clause selects exactly the wanted readings, in table order. |
| Retrieval.GetReadingsByDevice | api/services/readingService.js:100-148 | Succeeds exactly when all of these hold: the store calls succeed; the device id is not undefined, which the driver refuses as a bound value; the page number and the page size are both positive; the page size and the offset are at most 2^64−1. Otherwise the store refuses OFFSET/LIMIT. On success: `currentPage` is the coerced page; `total` counts the wanted readings; `totalPages` is their ceiling page count; `data` is that page of the newest-first, sensor-joined listing under the store's ranking of ties for this request, and holds at most `limit` rows. The connection is released once. |
| Retrieval.WithKnownSensor | api/services/readingService.js:137 | The inner join with `sensors` keeps no more rows than it is given, and every kept reading's sensor exists. |
| Retrieval.KnownSensorMembers | api/services/readingService.js:137 | The inner join keeps exactly the readings whose sensor exists. |
| Retrieval.KnownSensorOrder | api/services/readingService.js:137-139 | The inner join keeps the newest-first order. |
| Retrieval.KnownSensorAll | api/services/readingService.js:137 | When every reading's sensor exists, the inner join keeps all of them. |
| Retrieval.ListingOrder | api/services/readingService.js:139 | The listing is newest first. |
| Retrieval.ListingSize | api/services/readingService.js:130-142 | The listing holds at most `total` rows, and exactly `total` when every reading's sensor exists. |
| Retrieval.ListingProvenance | api/services/readingService.js:134-142 | Each listed row is a wanted reading of the table, carrying that reading's id. |
| Retrieval.PageIsSlice | api/services/readingService.js:140-142 | Page p of a query is the p-th slice of the listing, under the ranking of ties that request's store uses. This holds for every page number, including pages whose offset the store refuses, given a page size within the store's range and a table of at most 2^64−1 rows. |
| Retrieval.AgreeingPagesPartition | api/services/readingService.js:100-148 | If every page request sees the same listing as page 1, pages 1 to `totalPages`, fetched one request each, concatenate to that listing, and it holds `total` rows. This needs a positive page size within the store's range, a defined device id, every sensor known and a table of at most 2^64−1 rows. |
| Retrieval.ByDevicePagesPartition | api/services/readingService.js:100-148 | If the store ranks ties the same way in every request, the pages partition the listing: no row skipped, none repeated. The listing's length is page 1's `total`. |
| Retrieval.ListingsAgree | api/services/readingService.js:134-142 | When no two wanted readings share a timestamp, the listing does not depend on how the store ranks ties. |
| Retrieval.DistinctTimesPagesPartition | api/services/readingService.js:100-148 | When no two wanted readings share a timestamp, the pages partition the listing however each request's store ranks ties. |
| Retrieval.TiedPagesRepeat | api/services/readingService.js:134-142 | Take any table of exactly two wanted readings with the same timestamp, one row per page, and a store that ranks them by ascending id for page 1 and by descending id for page 2. `total` and `totalPages` are 2, yet pages 1 and 2 both return the lower-id reading and never the other one. Retrieval.TiedPairExists gives such a table: two readings from one device and sensor, stamped at one instant as one batch insert leaves them. |
| Retrieval.KeepWantedIgnoresPaging | api/services/readingService.js:104-123 | Which readings are wanted does not depend on the page or the limit. |
| RequiredParams.Missing | api/middlewares/validateRequiredParams.js:6-8 | `names.filter(p => !source[p])` throws exactly when there is a name to look up in an undefined/null source. Otherwise it keeps at most all the names. |
| RequiredParams.MissingMembers | api/middlewares/validateRequiredParams.js:6-8 | The filter keeps exactly the names not given truthily. It is empty exactly when every name is given. |
| RequiredParams.MissingAppend | api/middlewares/validateRequiredParams.js:6-8 | The filter keeps the order of the names. |
| RequiredParams.Conclude | api/middlewares/validateRequiredParams.js:10-14 | It never throws. With missing names, the answer is 400 with "Missing required parameters: " and the names joined by ", ". With none, the request passes to the handler. |
| RequiredParams.Validate | api/middlewares/validateRequiredParams.js:2-16 | It throws exactly when neither list is configured or a configured list is read from an undefined/null source. It calls `next()` exactly when every name of the checked list (the body list when present, else the query list) is given. Otherwise it answers 400 with "Missing required parameters: " and the missing names joined by ", ": exactly the filter result of the checked list, so they keep the list's order and repeats. |
| RequiredParams.BodyListOverridesQuery | api/middlewares/validateRequiredParams.js:5-8 | When both lists are configured and the query can be read, the query list has no effect on the decision. |
| RequiredParams.QueryListIgnoresBody | api/middlewares/validateRequiredParams.js:5-8 | With only a query list, the request body has no effect on the decision. |

## Left out

- SQL is not executed. The store is an abstract table, and these facts about MariaDB are assumptions of the model:
  - a batch insert gets consecutive ids from the counter;
  - the counter advances even when the transaction rolls back;
  - committed rows change only on commit;
  - a LIMIT or OFFSET that is NaN, negative or above 2^64−1 is an error (JavaScript writes numbers from 1e21 on in exponent form, which is also refused, and those are above that bound);
  - the driver refuses a bound `undefined` before running the query;
  - a bound `null` compares equal to nothing;
  - the foreign key on `sensor_id` makes the insert fail for a row whose sensor does not exist;
  - a SELECT without ORDER BY (the id-range read-back of `addReadings`) returns rows in id order, as a primary-key range scan does. The "one per item in order" promise of `addReadings` rests on this.
- The foreign key on `device_id` is not modelled, because the `devices` table is not part of this model. An unknown device id is accepted.
- `ORDER BY timestamp DESC` fixes no order among readings with equal timestamps. Every ordered query takes the store's ranking of ties as an input, and different requests may rank differently. The readings of one batch share a timestamp in this model, so ties are the normal case.
- Retrieval.ByDevicePagesPartition: assumes that the store ranks ties the same way in every page request. SQL does not promise this. Retrieval.DistinctTimesPagesPartition drops that assumption only when no two wanted readings share a timestamp. Retrieval.TiedPagesRepeat shows that, otherwise, separately fetched pages can repeat one reading and skip another.
- `parseInt` on strings and parsing ISO 8601 dates are not modelled. Coerced page and limit values and the date bounds are inputs: `Option<int>`, where `None` is NaN or absent. An empty date string counts as absent, since it is falsy.
- Retrieval.GetReadingsByDevice: page, limit and offset are exact integers. The service computes them as JavaScript doubles, which round above 2^53, so between 2^53 and 2^64−1 the model's LIMIT and OFFSET can differ from the ones the service sends.
- Retrieval.GetReadings: `count` is an exact integer, while `parseInt` returns a double that rounds above 2^53, so between 2^53 and 2^64−1 the model's LIMIT can differ from the one the service sends.
- Retrieval.PageIsSlice and the partition lemmas assume a table of at most 2^64−1 rows, so that an offset the store refuses lies past the end of the listing anyway.
- Readings are stamped with one instant per batch. A column default may differ per row.
- Numeric values are kept as bound, and SQL column type coercion is not modelled. Floating point is modelled as `real`, without rounding.
- Ingestion.AddReadings: the error messages are English renderings of the service's messages, so only their identity matters.
- Ingestion.FinishBatch: the service's zero-affected-rows branch is modelled on its own. In the model the store never reports zero rows for a non-empty batch, so `AddReadings` never takes that branch.
- No file in this code calls the reading service. The routers are separate inline handlers that run their own SQL, and they are not part of this model:
  - `api/routers/reading.js`;
  - `api/routers/deviceReading/add.js`;
  - `api/routers/deviceReading/queryRecord.js`, which queries another table;
  - `api/routers/deviceReading/deviceReading.js`, which only mounts `add`.
  The `validateRequiredParams` middleware they mount is modelled on its own.
- The device and sensor services, token authentication (`authenticateToken.js`), `db.js` pooling, Swagger and the Vue frontend are not part of this model.
- Concurrency: two requests interleaving on the pool is not modelled. Each operation sees one committed state.
- Property lookup through the prototype chain is not modelled. A query or body object is a plain map, so names like `constructor` are treated as absent unless set.
- Own properties of arrays and strings are not modelled: their `length` and index keys read as `undefined`. A JSON array body with a required name such as `0` or `length` is therefore rejected, where the service would accept it. The names the routes require are not such keys.
- RequiredParams.Validate: a configuration object that is itself undefined is not modelled, since every route passes an object literal.

=== FILE: ingestion.dfy ===
/**
 * Batch ingestion (`addReadings`): validate the request, map it to rows,
 * insert them in one transaction, read the inserted rows back by their id
 * range, and commit; on any error roll back and re-throw; release the
 * connection on every path that obtained one.
 */
module Ingestion {
  import opened Wrappers
  import opened JsValues
  import opened Store

  const InvalidRequestMessage := "Invalid input: 'device_id' and a non-empty 'values' array are required."
  const InvalidItemMessage := "Every item of the 'values' array must contain 'sensor_id' and 'value'."

  /** One row handed to the batch insert: `[device_id, sensor_id, value]`. */
  datatype Row = Row(deviceId: JsValue, sensorId: JsValue, value: JsValue)

  /** What the model takes from outside: the store calls that fail, and the server clock. */
  datatype Env = Env(faults: set<Step>, now: int)

  /**
   * The guard checked before any store call: the request destructures (it is
   * not `undefined`/`null`), `device_id` is truthy and `values` is a
   * non-empty array.
   */
  predicate ShapeOk(request: JsValue) {
    && Property(request, "device_id").Some?
    && Truthy(Property(request, "device_id").value)
    && Property(request, "values").value.Arr?
    && |Property(request, "values").value.items| > 0
  }

  function DeviceIdOf(request: JsValue): JsValue
    requires ShapeOk(request)
  {
    Property(request, "device_id").value
  }

  function ItemsOf(request: JsValue): seq<JsValue>
    requires ShapeOk(request)
  {
    Property(request, "values").value.items
  }

  /** An item the row mapping accepts: it defines `sensor_id` and `value` (`0` and `null` count as defined). */
  predicate ItemWellFormed(item: JsValue) {
    && Property(item, "sensor_id").Some?
    && Property(item, "sensor_id").value != Undefined
    && Property(item, "value").value != Undefined
  }

  /**
   * What the mapping throws for a malformed item: reading a property of an
   * `undefined`/`null` item is a TypeError (no status code); any other
   * malformed item is a 400 error.
   */
  function ItemError(item: JsValue): (e: Error)
    requires !ItemWellFormed(item)
    ensures e.TypeError? <==> Property(item, "sensor_id").None?
    ensures !e.TypeError? ==> StatusCode(e) == Some(400)
  {
    if item.Undefined? || item.Null? then TypeError else BadRequest(InvalidItemMessage)
  }

  /** The request is accepted all the way to the insert. */
  predicate WellFormedBatch(request: JsValue) {
    && ShapeOk(request)
    && forall i :: 0 <= i < |ItemsOf(request)| ==> ItemWellFormed(ItemsOf(request)[i])
  }

  /**
   * `values.map(...)`: row i is `[device_id, values[i].sensor_id, values[i].value]`,
   * and the first malformed item stops the mapping with its error.
   */
  function RowsToInsert(deviceId: JsValue, items: seq<JsValue>): (r: Result<seq<Row>, Error>)
    ensures r.Success? <==> forall i :: 0 <= i < |items| ==> ItemWellFormed(items[i])
    ensures r.Success? ==> |r.value| == |items|
    ensures r.Success? ==> forall i :: 0 <= i < |items| ==>
      r.value[i] == Row(deviceId, Property(items[i], "sensor_id").value, Property(items[i], "value").value)
    ensures r.Failure? ==>
              exists k :: 0 <= k < |items|
                          && (forall i :: 0 <= i < k ==> ItemWellFormed(items[i]))
                          && !ItemWellFormed(items[k])
                          && r.error == ItemError(items[k])
    decreases |items|
  {
    if |items| == 0 then Success([])
    else if !ItemWellFormed(items[0]) then Failure(ItemError(items[0]))
    else
      match RowsToInsert(deviceId, items[1..])
      case Failure(e) => Failure(e)
      case Success(rest) =>
        Success([Row(deviceId, Property(items[0], "sensor_id").value, Property(items[0], "value").value)] + rest)
  }

  function BatchRows(request: JsValue): seq<Row>
    requires WellFormedBatch(request)
  {
    RowsToInsert(DeviceIdOf(request), ItemsOf(request)).value
  }

  /** `batch` is `rows` stored with the contiguous ids firstId, firstId + 1, ... in order, all stamped `now`. */
  predicate IsBatch(batch: seq<Reading>, firstId: int, rows: seq<Row>, now: int) {
    && |batch| == |rows|
    && forall i :: 0 <= i < |rows| ==>
      batch[i] == Reading(firstId + i, rows[i].deviceId, rows[i].sensorId, rows[i].value, now)
  }

  /**
   * The readings the store creates for one batched insert. That one insert
   * statement receives a contiguous run of ids is an assumption about the
   * store, not something the service checks.
   */
  function Stamp(rows: seq<Row>, firstId: int, now: int): (batch: seq<Reading>)
    ensures IsBatch(batch, firstId, rows, now)
  {
    seq(|rows|, i requires 0 <= i < |rows| =>
      Reading(firstId + i, rows[i].deviceId, rows[i].sensorId, rows[i].value, now))
  }

  /**
   * The id range `[firstId, firstId + affected - 1]` re-queried inside the
   * transaction selects exactly the rows the batch appended, in order, when
   * every committed id lies below the batch's first id.
   */
  lemma ReadBackIsBatch(committed: seq<Reading>, batch: seq<Reading>, firstId: int)
    requires forall i :: 0 <= i < |committed| ==> committed[i].id < firstId
    requires forall i :: 0 <= i < |batch| ==> batch[i].id == firstId + i
    ensures SelectIdRange(committed + batch, firstId, firstId + |batch| - 1) == batch
  {
    var hi := firstId + |batch| - 1;
    SelectIdRangeAppend(committed, batch, firstId, hi);
    SelectIdRangeBelow(committed, firstId, hi);
    SelectIdRangeAll(batch, firstId, hi);
  }

  /** Appending a batch whose ids start at the counter keeps the auto-increment invariant. */
  lemma AppendKeepsValid(db: Db, batch: seq<Reading>, rows: seq<Row>, now: int)
    requires Valid(db) && IsBatch(batch, db.nextId, rows, now)
    ensures Valid(Db(db.readings + batch, db.nextId + |batch|, db.sensors))
  {
    var all := db.readings + batch;
    forall i, j | 0 <= i < j < |all| ensures all[i].id < all[j].id {
      if j < |db.readings| {
      } else if i < |db.readings| {
        assert all[j] == batch[j - |db.readings|];
      } else {
        assert all[i] == batch[i - |db.readings|] && all[j] == batch[j - |db.readings|];
      }
    }
  }

  /** The tail of the transaction after the insert: the value returned and the calls made before rollback/release. */
  datatype Finish = Finish(result: Result<seq<Reading>, Error>, calls: seq<Step>)

  /**
   * Given the first id and the affected count the store reports, and the rows
   * the transaction sees: with nothing affected, commit and return no rows;
   * otherwise select the id range and commit. A failing call ends the tail
   * with that call's error.
   */
  function FinishBatch(visible: seq<Reading>, firstId: int, affected: int, faults: set<Step>): (f: Finish)
    ensures 1 <= |f.calls| <= 2
    ensures affected == 0 ==> f.calls == [Commit]
    ensures affected == 0 && f.result.Success? ==> f.result.value == []
    ensures affected != 0 ==> f.calls[0] == SelectRange
    ensures f.result.Success? <==> Commit !in faults && (affected == 0 || SelectRange !in faults)
    ensures f.result.Success? ==> f.calls[|f.calls| - 1] == Commit
    ensures f.result.Failure? ==> f.result.error == StorageError(f.calls[|f.calls| - 1]) && f.calls[|f.calls| - 1] in faults
    ensures f.result.Success? && affected != 0 ==>
      forall x :: x in f.result.value <==> x in visible && firstId <= x.id <= firstId + affected - 1
    ensures Release !in f.calls && Rollback !in f.calls
  {
    if affected == 0 then
      Finish(if Commit in faults then Failure(StorageError(Commit)) else Success([]), [Commit])
    else if SelectRange in faults then
      Finish(Failure(StorageError(SelectRange)), [SelectRange])
    else
      var inserted := SelectIdRange(visible, firstId, firstId + affected - 1);
      SelectIdRangeMembers(visible, firstId, firstId + affected - 1);
      Finish(if Commit in faults then Failure(StorageError(Commit)) else Success(inserted), [SelectRange, Commit])
  }

  /** Every row names a sensor of the `sensors` table, as the foreign key on `sensor_id` demands. */
  predicate SensorsExist(rows: seq<Row>, sensors: map<JsValue, string>) {
    forall i :: 0 <= i < |rows| ==> rows[i].sensorId in sensors
  }

  /**
   * The first of the calls from the insert to the commit that fails, in the
   * order the `try` block makes them. The insert also fails when `refused`
   * (a row breaks the foreign key); the range select is made only when
   * `selects`.
   */
  function FirstBatchFault(faults: set<Step>, refused: bool, selects: bool): Option<Step> {
    if Insert in faults || refused then Some(Insert)
    else if ReadBack in faults then Some(ReadBack)
    else if selects && SelectRange in faults then Some(SelectRange)
    else if Commit in faults then Some(Commit)
    else None
  }

  /** None of the store calls a committed batch needs fails (the range select only when rows were affected). */
  predicate Healthy(faults: set<Step>, selects: bool) {
    && Connect !in faults && Begin !in faults && Insert !in faults
    && ReadBack !in faults && (selects ==> SelectRange !in faults) && Commit !in faults
  }

  /**
   * What leaves the `catch` block: it rolls back and re-throws the error it
   * caught, unless the rollback itself fails and its error escapes instead.
   */
  function AfterRollback(err: Error, faults: set<Step>): (e: Error)
    ensures e == err || e == StorageError(Rollback)
    ensures e == err <==> Rollback !in faults || err == StorageError(Rollback)
  {
    if Rollback in faults then StorageError(Rollback) else err
  }

  /**
   * The calls from the insert on once the read-back succeeded: the batch's
   * closing calls `finish`, a rollback unless the batch committed, then the
   * release in `finally`.
   */
  function Wrapup(finish: seq<Step>, committed: bool): (tail: seq<Step>)
    requires Release !in finish && Rollback !in finish && Connect !in finish
    ensures |tail| >= 2 && tail[0] == Insert && Connect !in tail
    ensures tail[|tail| - 1] == Release && Release !in tail[..|tail| - 1]
    ensures !committed ==> Rollback in tail
    ensures committed ==> Rollback !in tail && (Commit in finish ==> Commit in tail)
  {
    var body := [Insert, ReadBack] + finish + (if committed then [] else [Rollback]);
    assert (body + [Release])[..|body|] == body;
    body + [Release]
  }

  /**
   * From the insert on: insert the mapped rows, read back the first id and
   * the affected count, finish the batch, and on an error roll back; then
   * release. `tail` is the calls made, ending with the release.
   */
  method InsertAndCommit(rows: seq<Row>, db: Db, env: Env)
    returns (result: Result<seq<Reading>, Error>, db': Db, tail: seq<Step>)
    requires Valid(db)
    ensures Valid(db') && db'.sensors == db.sensors && db'.nextId >= db.nextId
    ensures result.Success? ==> db'.readings == db.readings + result.value
    ensures result.Failure? ==> db'.readings == db.readings
    ensures SensorsKnown(db) ==> SensorsKnown(db')
    ensures result.Success? <==>
      && Insert !in env.faults && SensorsExist(rows, db.sensors) && ReadBack !in env.faults && Commit !in env.faults
      // an empty batch affects no rows, so it never selects them back
      && (|rows| > 0 ==> SelectRange !in env.faults)
    ensures result.Success? ==> IsBatch(result.value, db.nextId, rows, env.now)
    ensures result.Failure? && Rollback !in env.faults ==>
      result.error == StorageError(FirstBatchFault(env.faults, !SensorsExist(rows, db.sensors), |rows| > 0).value)
    ensures result.Failure? && Rollback in env.faults ==> result.error == StorageError(Rollback)
    ensures |tail| >= 2 && tail[0] == Insert && Connect !in tail
    ensures tail[|tail| - 1] == Release && Release !in tail[..|tail| - 1]
    ensures result.Failure? ==> Rollback in tail
    ensures result.Success? ==> Rollback !in tail && Commit in tail
  {
    if Insert in env.faults || !SensorsExist(rows, db.sensors) {
      // The store refuses a row whose sensor does not exist.
      return Failure(AfterRollback(StorageError(Insert), env.faults)), db, [Insert, Rollback, Release];
    }
    // The insert draws its ids from the counter whether or not the transaction commits.
    var firstId := db.nextId;
    var batch := Stamp(rows, firstId, env.now);
    var drawn := db.(nextId := firstId + |batch|);
    if ReadBack in env.faults {
      return Failure(AfterRollback(StorageError(ReadBack), env.faults)), drawn, [Insert, ReadBack, Rollback, Release];
    }
    var affected := |batch|;
    var finish := FinishBatch(db.readings + batch, firstId, affected, env.faults);
    if finish.result.Failure? {
      return Failure(AfterRollback(finish.result.error, env.faults)), drawn, Wrapup(finish.calls, false);
    }
    ReadBackIsBatch(db.readings, batch, firstId);
    assert finish.result.value == batch;
    AppendKeepsValid(db, batch, rows, env.now);
    result := finish.result;
    db' := drawn.(readings := db.readings + batch);
    tail := Wrapup(finish.calls, true);
  }

  /**
   * The `try` block of `addReadings` with its `catch` and `finally`, run on
   * the validated device id and items against the committed state `db`.
   */
  method Transact(deviceId: JsValue, items: seq<JsValue>, db: Db, env: Env)
    returns (result: Result<seq<Reading>, Error>, db': Db, calls: seq<Step>)
    requires Valid(db)
    ensures Valid(db') && db'.sensors == db.sensors && db'.nextId >= db.nextId
    ensures result.Success? ==> db'.readings == db.readings + result.value
    ensures result.Failure? ==> db'.readings == db.readings
    ensures SensorsKnown(db) ==> SensorsKnown(db')
    ensures result.Success? <==>
      && RowsToInsert(deviceId, items).Success?
      && SensorsExist(RowsToInsert(deviceId, items).value, db.sensors)
      // an empty batch affects no rows, so it never selects them back
      && Healthy(env.faults, |items| > 0)
    ensures result.Success? ==> IsBatch(result.value, db.nextId, RowsToInsert(deviceId, items).value, env.now)
    ensures result.Failure? && Connect in env.faults ==> result.error == StorageError(Connect)
    ensures result.Failure? && Connect !in env.faults && Rollback in env.faults ==> result.error == StorageError(Rollback)
    ensures env.faults !! {Connect, Rollback} && Begin in env.faults ==> result == Failure(StorageError(Begin))
    ensures env.faults !! {Connect, Begin, Rollback} && RowsToInsert(deviceId, items).Success? && result.Failure? ==>
      var rows := RowsToInsert(deviceId, items).value;
      result.error == StorageError(FirstBatchFault(env.faults, !SensorsExist(rows, db.sensors), |items| > 0).value)
    ensures RowsToInsert(deviceId, items).Failure? && env.faults !! {Connect, Begin, Rollback} ==>
      && calls == [Connect, Begin, Rollback, Release] && db' == db
      && result == Failure(RowsToInsert(deviceId, items).error)
    ensures |calls| > 0 && calls[0] == Connect
    ensures ReleasedOnce(calls, env.faults)
    ensures result.Failure? && Acquired(calls, env.faults) ==> Rollback in calls
    ensures result.Success? ==> Rollback !in calls && Commit in calls
  {
    if Connect in env.faults {
      // `conn` stays undefined: there is nothing to roll back or release.
      return Failure(StorageError(Connect)), db, [Connect];
    }
    if Begin in env.faults {
      return Failure(AfterRollback(StorageError(Begin), env.faults)), db, [Connect, Begin, Rollback, Release];
    }
    var rows := RowsToInsert(deviceId, items);
    if rows.Failure? {
      return Failure(AfterRollback(rows.error, env.faults)), db, [Connect, Begin, Rollback, Release];
    }
    var tail;
    result, db', tail := InsertAndCommit(rows.value, db, env);
    calls := [Connect, Begin] + tail;
    assert calls[..|calls| - 1] == [Connect, Begin] + tail[..|tail| - 1];
  }

  /**
   * `addReadings(request)` against the committed state `db`. Either the whole
   * batch is committed with a contiguous run of fresh ids and returned, or
   * the committed readings are unchanged.
   */
  method AddReadings(request: JsValue, db: Db, env: Env)
    returns (result: Result<seq<Reading>, Error>, db': Db, calls: seq<Step>)
    requires Valid(db)
    ensures Valid(db') && db'.sensors == db.sensors && db'.nextId >= db.nextId
    ensures result.Success? ==> db'.readings == db.readings + result.value
    ensures result.Failure? ==> db'.readings == db.readings
    ensures SensorsKnown(db) ==> SensorsKnown(db')
    ensures result.Success? <==>
      WellFormedBatch(request) && SensorsExist(BatchRows(request), db.sensors) && Healthy(env.faults, true)
    ensures result.Success? ==> IsBatch(result.value, db.nextId, BatchRows(request), env.now)
    ensures ShapeOk(request) && result.Failure? && Connect in env.faults ==> result.error == StorageError(Connect)
    ensures ShapeOk(request) && result.Failure? && Connect !in env.faults && Rollback in env.faults ==>
      result.error == StorageError(Rollback)
    ensures ShapeOk(request) && env.faults !! {Connect, Rollback} && Begin in env.faults ==>
      result == Failure(StorageError(Begin))
    ensures WellFormedBatch(request) && env.faults !! {Connect, Begin, Rollback} && result.Failure? ==>
      result.error == StorageError(FirstBatchFault(env.faults, !SensorsExist(BatchRows(request), db.sensors), true).value)
    ensures !ShapeOk(request) ==>
      && calls == [] && db' == db
      && result == Failure(if Property(request, "device_id").None? then TypeError else BadRequest(InvalidRequestMessage))
    ensures ShapeOk(request) && !WellFormedBatch(request) && env.faults !! {Connect, Begin, Rollback} ==>
      && calls == [Connect, Begin, Rollback, Release] && db' == db
      && result == Failure(RowsToInsert(DeviceIdOf(request), ItemsOf(request)).error)
    ensures result.Failure? ==>
      (StatusCode(result.error) == Some(400) <==>
        || (!ShapeOk(request) && Property(request, "device_id").Some?)
        || (&& ShapeOk(request) && !WellFormedBatch(request) && env.faults !! {Connect, Begin, Rollback}
            && RowsToInsert(DeviceIdOf(request), ItemsOf(request)).error.BadRequest?))
    ensures ReleasedOnce(calls, env.faults)
    ensures result.Failure? && Acquired(calls, env.faults) ==> Rollback in calls
    ensures result.Success? ==> Rollback !in calls && Commit in calls
  {
    var deviceId := Property(request, "device_id");
    var values := Property(request, "values");
    if deviceId.None? {
      return Failure(TypeError), db, [];
    }
    if !Truthy(deviceId.value) || !values.value.Arr? || |values.value.items| == 0 {
      return Failure(BadRequest(InvalidRequestMessage)), db, [];
    }
    assert DeviceIdOf(request) == deviceId.value && ItemsOf(request) == values.value.items;
    result, db', calls := Transact(deviceId.value, values.value.items, db, env);
  }
}

=== FILE: js_values.dfy ===
/**
 * The JavaScript values the service reads from its requests, with the two
 * language rules the service leans on: truthiness (`if (x)`, `!x`, `x || d`)
 * and property access (`v.key`), which throws on `undefined` and `null`.
 */
module JsValues {
  import opened Wrappers

  /**
   * A JavaScript value. Numbers are reals plus a separate `NaN`; the
   * infinities and `-0` (which behaves like `0` for every rule used here)
   * are not distinguished.
   */
  datatype JsValue =
    | Undefined
    | Null
    | Bool(b: bool)
    | Num(n: real)
    | NaN
    | Str(s: string)
    | Arr(items: seq<JsValue>)
    | Obj(props: map<string, JsValue>)

  /** JavaScript truthiness: `false`, `0`, `NaN`, `""`, `null` and `undefined` are falsy. */
  predicate Truthy(v: JsValue) {
    match v
    case Undefined => false
    case Null => false
    case Bool(b) => b
    case Num(n) => n != 0.0
    case NaN => false
    case Str(s) => s != ""
    case Arr(_) => true
    case Obj(_) => true
  }

  /**
   * `v[key]` for an own data property of a plain object: `None` stands for
   * the TypeError thrown when `v` is `undefined` or `null`; any other value
   * without that property yields `undefined`. Arrays and strings are treated
   * as having no properties, so their `length` and index keys read as
   * `undefined` here.
   */
  function Property(v: JsValue, key: string): (r: Option<JsValue>)
    ensures r.None? <==> v.Undefined? || v.Null?
    ensures v.Obj? && key in v.props ==> r == Some(v.props[key])
  {
    match v
    case Undefined => None
    case Null => None
    case Obj(props) => Some(Lookup(props, key))
    case _ => Some(Undefined)
  }

  /** A key's value in a plain object, `undefined` when absent. */
  function Lookup(props: map<string, JsValue>, key: string): JsValue {
    if key in props then props[key] else Undefined
  }
}

=== FILE: pagination.dfy ===
/**
 * The page arithmetic of `getReadingsByDevice`: lenient coercion of `page`
 * and `limit`, the offset, the page count, and `LIMIT ? OFFSET ?` as a slice,
 * with the theorem that pages 1 to the page count partition the result list.
 */
module Pagination {
  import opened Wrappers
  import opened JsValues

  const DefaultPage := 1
  const DefaultLimit := 60

  function Min(a: int, b: int): int {
    if a <= b then a else b
  }

  /** The JavaScript number `parseInt` returned: `None` stands for NaN. */
  function Parsed(parsed: Option<int>): JsValue {
    if parsed.Some? then Num(parsed.value as real) else NaN
  }

  /**
   * `parseInt(x, 10) || fallback` where `parsed` is what `parseInt` returned
   * (`None` for NaN): `||` keeps a truthy left operand and otherwise yields
   * the right one, so NaN and 0 fall back and any other integer, negative
   * ones included, is kept.
   */
  function OrDefault(parsed: Option<int>, fallback: int): (n: int)
    ensures Truthy(Parsed(parsed)) ==> Parsed(parsed) == Num(n as real)
    ensures !Truthy(Parsed(parsed)) ==> n == fallback
  {
    match parsed
    case Some(v) => if v != 0 then v else fallback
    case None => fallback
  }

  /** `pageNum`: never zero, 1 for a missing, zero or non-numeric page. */
  function PageNumber(page: Option<int>): (n: int)
    ensures n != 0
    ensures n == DefaultPage <==> page.None? || page.value == 0 || page.value == DefaultPage
  {
    OrDefault(page, DefaultPage)
  }

  /** `limitNum`: never zero, 60 for a missing, zero or non-numeric limit. */
  function LimitNumber(limit: Option<int>): (n: int)
    ensures n != 0
    ensures n == DefaultLimit <==> limit.None? || limit.value == 0 || limit.value == DefaultLimit
  {
    OrDefault(limit, DefaultLimit)
  }

  /** `(pageNum - 1) * limitNum`: the rows on the pages before `pageNum`. */
  function Offset(pageNum: int, limitNum: int): (offset: int)
    ensures limitNum >= 1 ==> (offset >= 0 <==> pageNum >= 1)
    ensures pageNum == 1 ==> offset == 0
  {
    (pageNum - 1) * limitNum
  }

  /** `Math.ceil(total / limitNum)` for a positive page size: the fewest pages that hold `total` rows. */
  function TotalPages(total: nat, limitNum: int): (pages: nat)
    requires limitNum > 0
    ensures pages * limitNum >= total
    ensures pages > 0 ==> (pages - 1) * limitNum < total
    ensures pages == 0 <==> total == 0
  {
    (total + limitNum - 1) / limitNum
  }

  /** `LIMIT limit OFFSET offset` over an ordered result. */
  function Slice<T>(s: seq<T>, offset: nat, limit: nat): (r: seq<T>)
    ensures |r| == if offset >= |s| then 0 else Min(limit, |s| - offset)
    ensures forall i :: 0 <= i < |r| ==> r[i] == s[offset + i]
  {
    if offset >= |s| then [] else s[offset .. Min(offset + limit, |s|)]
  }

  /** Page `pageNum` (counted from 1) of `s` at `limitNum` rows per page. */
  function PageOf<T>(s: seq<T>, pageNum: int, limitNum: int): (r: seq<T>)
    requires pageNum >= 1 && limitNum >= 1
    ensures |r| <= limitNum
  {
    Slice(s, Offset(pageNum, limitNum), limitNum)
  }

  /** Pages `first`, `first + 1`, ... (`count` of them) of `s`, concatenated. */
  function Pages<T>(s: seq<T>, limitNum: int, first: int, count: nat): seq<T>
    requires first >= 1 && limitNum >= 1
    decreases count
  {
    if count == 0 then [] else PageOf(s, first, limitNum) + Pages(s, limitNum, first + 1, count - 1)
  }

  /** The pages `first`, `first + 1`, ... (`count` of them) that `page` yields, concatenated. */
  function Concat<T>(page: int -> seq<T>, first: int, count: nat): seq<T>
    decreases count
  {
    if count == 0 then [] else page(first) + Concat(page, first + 1, count - 1)
  }

  /** Fetching each page separately and concatenating gives the same rows as `Pages`. */
  lemma {:induction false} ConcatOfPages<T>(page: int -> seq<T>, s: seq<T>, limitNum: int, first: int, count: nat)
    requires first >= 1 && limitNum >= 1
    requires forall p :: first <= p < first + count ==> page(p) == PageOf(s, p, limitNum)
    ensures Concat(page, first, count) == Pages(s, limitNum, first, count)
    decreases count
  {
    if count > 0 {
      ConcatOfPages(page, s, limitNum, first + 1, count - 1);
    }
  }

  /** The next page starts one page size further on. */
  lemma NextOffset(pageNum: int, limitNum: int)
    ensures Offset(pageNum + 1, limitNum) == Offset(pageNum, limitNum) + limitNum
  {
  }

  /** The rows from `offset` on are the slice at `offset` followed by the rows after it. */
  lemma SliceThenRest<T>(s: seq<T>, offset: nat, limit: nat)
    ensures s[Min(offset, |s|)..] == Slice(s, offset, limit) + s[Min(offset + limit, |s|)..]
  {
    if offset < |s| {
      assert s[offset..] == s[offset .. Min(offset + limit, |s|)] + s[Min(offset + limit, |s|)..];
    }
  }

  /** The rows from a page's offset on are that page followed by the rows from the next page's offset on. */
  lemma PageThenRest<T>(s: seq<T>, limitNum: int, pageNum: int)
    requires pageNum >= 1 && limitNum >= 1
    ensures s[Min(Offset(pageNum, limitNum), |s|)..]
         == PageOf(s, pageNum, limitNum) + s[Min(Offset(pageNum + 1, limitNum), |s|)..]
  {
    NextOffset(pageNum, limitNum);
    SliceThenRest(s, Offset(pageNum, limitNum), limitNum);
  }

  /** Enough pages from `first` on reproduce `s` from that page's offset to its end. */
  lemma {:induction false} PagesFrom<T>(s: seq<T>, limitNum: int, first: int, count: nat)
    requires first >= 1 && limitNum >= 1
    requires |s| <= (first - 1 + count) * limitNum
    ensures Pages(s, limitNum, first, count) == s[Min(Offset(first, limitNum), |s|)..]
    decreases count
  {
    if count > 0 {
      assert (first - 1 + count) * limitNum == (first + 1 - 1 + (count - 1)) * limitNum;
      PagesFrom(s, limitNum, first + 1, count - 1);
      PageThenRest(s, limitNum, first);
    }
  }

  /**
   * For a positive page size, pages 1 to `TotalPages` concatenated give the
   * whole list: no row is skipped and none appears twice.
   */
  lemma PagesPartition<T>(s: seq<T>, limitNum: int)
    requires limitNum >= 1
    ensures Pages(s, limitNum, 1, TotalPages(|s|, limitNum)) == s
  {
    PagesFrom(s, limitNum, 1, TotalPages(|s|, limitNum));
  }

  /** Pages past the last one are empty. */
  lemma PastLastPage<T>(s: seq<T>, limitNum: int, pageNum: int)
    requires limitNum >= 1 && pageNum > TotalPages(|s|, limitNum)
    ensures PageOf(s, pageNum, limitNum) == []
  {
    var pages := TotalPages(|s|, limitNum);
    assert Offset(pageNum, limitNum) >= pages * limitNum by {
      assert pageNum - 1 >= pages;
      MultiplyMonotone(pages, pageNum - 1, limitNum);
    }
  }

  lemma MultiplyMonotone(a: int, b: int, c: nat)
    requires a <= b
    ensures a * c <= b * c
  {
  }
}

=== FILE: query_plan.dfy ===
/**
 * The WHERE clause of `getReadingsByDevice`: which conditions are added, in
 * which order, paired with which bound values; the SQL text they produce;
 * and what the composed filter selects from the readings table.
 */
module QueryPlan {
  import opened Wrappers
  import opened JsValues
  import opened Store
  import opened Text

  /**
   * The arguments of `getReadingsByDevice`. `page` and `limit` are what
   * `parseInt(x, 10)` returned (`None` for NaN); a date is the instant it
   * denotes, `None` when it is absent or the empty string.
   */
  datatype DeviceQuery = DeviceQuery(
    deviceId: JsValue,
    page: Option<int>,
    limit: Option<int>,
    startDate: Option<int>,
    endDate: Option<int>,
    sensorId: JsValue)

  /** The conditions the WHERE clause can hold. */
  datatype Clause = DeviceIs | NotBefore | Before | SensorIs

  /** A condition's SQL text up to its placeholder. */
  function ClauseLead(c: Clause): string {
    match c
    case DeviceIs => "r.device_id = "
    case NotBefore => "r.timestamp >= "
    case Before => "r.timestamp < "
    case SensorIs => "r.sensor_id = "
  }

  function ClauseSql(c: Clause): string {
    ClauseLead(c) + "?"
  }

  /** The position a condition takes when present. */
  function Rank(c: Clause): nat {
    match c
    case DeviceIs => 0
    case NotBefore => 1
    case Before => 2
    case SensorIs => 3
  }

  /** `whereClauses` with the parallel `params` array. */
  datatype Filter = Filter(clauses: seq<Clause>, params: seq<JsValue>)

  /** The value the service binds for a condition. */
  function BoundValue(c: Clause, q: DeviceQuery): JsValue {
    match c
    case DeviceIs => q.deviceId
    case NotBefore => if q.startDate.Some? then Num(q.startDate.value as real) else Undefined
    case Before => if q.endDate.Some? then Num(q.endDate.value as real) else Undefined
    case SensorIs => q.sensorId
  }

  /** `whereClauses.push(c); params.push(p)` */
  function Push(f: Filter, c: Clause, p: JsValue): Filter {
    Filter(f.clauses + [c], f.params + [p])
  }

  /** `[x]` when the condition holds, `[]` otherwise. */
  function When<T>(b: bool, x: T): seq<T> {
    if b then [x] else []
  }

  /** `whereClauses` and `params` as `getReadingsByDevice` builds them, by successive pushes. */
  function BuildFilter(q: DeviceQuery): (f: Filter)
    ensures |f.clauses| == |f.params| >= 1
    ensures f.clauses[0] == DeviceIs && f.params[0] == q.deviceId
    ensures |f.clauses| <= 4
  {
    var device := Filter([DeviceIs], [q.deviceId]);
    var from := if q.startDate.Some? then Push(device, NotBefore, Num(q.startDate.value as real)) else device;
    var until := if q.endDate.Some? then Push(from, Before, Num(q.endDate.value as real)) else from;
    if Truthy(q.sensorId) then Push(until, SensorIs, q.sensorId) else until
  }

  /** The filter as a concatenation of the pushes that happen. */
  lemma FilterShape(q: DeviceQuery)
    ensures BuildFilter(q).clauses
         == [DeviceIs] + When(q.startDate.Some?, NotBefore) + When(q.endDate.Some?, Before)
            + When(Truthy(q.sensorId), SensorIs)
    ensures BuildFilter(q).params
         == [q.deviceId] + When(q.startDate.Some?, BoundValue(NotBefore, q))
            + When(q.endDate.Some?, BoundValue(Before, q)) + When(Truthy(q.sensorId), BoundValue(SensorIs, q))
  {
  }

  /** The conditions appear in the source's fixed order, the device condition first. */
  lemma FilterOrder(q: DeviceQuery)
    ensures BuildFilter(q).clauses[0] == DeviceIs && BuildFilter(q).params[0] == q.deviceId
    ensures var cs := BuildFilter(q).clauses;
      forall i, j :: 0 <= i < j < |cs| ==> Rank(cs[i]) < Rank(cs[j])
  {
    FilterShape(q);
  }

  /** Each optional condition is present exactly when its option is given. */
  lemma FilterConditions(q: DeviceQuery)
    ensures NotBefore in BuildFilter(q).clauses <==> q.startDate.Some?
    ensures Before in BuildFilter(q).clauses <==> q.endDate.Some?
    ensures SensorIs in BuildFilter(q).clauses <==> Truthy(q.sensorId)
  {
    FilterShape(q);
  }

  /** Each condition is paired with the value it binds. */
  lemma FilterBindings(q: DeviceQuery)
    ensures var f := BuildFilter(q);
      forall i :: 0 <= i < |f.clauses| ==> f.params[i] == BoundValue(f.clauses[i], q)
  {
    FilterShape(q);
  }

  /**
   * The device condition comes first, then a lower bound on the timestamp
   * when a start date is given, an exclusive upper bound when an end date is
   * given, and a sensor condition when the sensor id is truthy; each
   * condition is paired with the value it binds.
   */
  lemma FilterComposition(q: DeviceQuery)
    ensures BuildFilter(q).clauses[0] == DeviceIs && BuildFilter(q).params[0] == q.deviceId
    ensures var cs := BuildFilter(q).clauses;
      forall i, j :: 0 <= i < j < |cs| ==> Rank(cs[i]) < Rank(cs[j])
    ensures NotBefore in BuildFilter(q).clauses <==> q.startDate.Some?
    ensures Before in BuildFilter(q).clauses <==> q.endDate.Some?
    ensures SensorIs in BuildFilter(q).clauses <==> Truthy(q.sensorId)
    ensures var f := BuildFilter(q);
      forall i :: 0 <= i < |f.clauses| ==> f.params[i] == BoundValue(f.clauses[i], q)
  {
    FilterOrder(q);
    FilterConditions(q);
    FilterBindings(q);
  }

  /** `whereClauses.join(' AND ')` */
  function WhereSql(f: Filter): string {
    Join(seq(|f.clauses|, i requires 0 <= i < |f.clauses| => ClauseSql(f.clauses[i])), " AND ")
  }

  // The fixed SQL text, written in short pieces.
  const CountPrefix := "SELECT COUNT(*) as total" + " FROM readings r WHERE "
  const PageColumns := "SELECT r.reading_id, " + "r.value, r.timestamp, " + "s.sensor_name "
  const PageSource := "FROM readings r " + "JOIN sensors s " + "ON r.sensor_id = " + "s.sensor_id WHERE "
  const PagePrefix := PageColumns + PageSource
  const OrderBy := " ORDER BY r.timestamp DESC"
  const PageSuffix := OrderBy + " LIMIT " + "?" + " OFFSET " + "?"

  /** The text of the count query. */
  function CountSql(f: Filter): string {
    CountPrefix + WhereSql(f)
  }

  /** The text of the page query (whitespace normalised). */
  function PageSql(f: Filter): string {
    PagePrefix + WhereSql(f) + PageSuffix
  }

  /**
   * `[...params, limitNum, offset]`, the values bound to the page query. It
   * serves to count placeholders; the rows `LIMIT ? OFFSET ?` then selects
   * are `Pagination.PageOf`, at the same `limitNum` and offset.
   */
  function PageParams(f: Filter, limitNum: int, offset: int): seq<JsValue> {
    f.params + [Num(limitNum as real), Num(offset as real)]
  }

  lemma {:induction false} NoOccurrences(c: char, s: string)
    requires c !in s
    ensures Occurrences(c, s) == 0
    decreases |s|
  {
    if |s| > 0 {
      assert s == [s[0]] + s[1..];
      NoOccurrences(c, s[1..]);
    }
  }

  lemma OnePlaceholderPerClause(c: Clause)
    ensures Occurrences('?', ClauseSql(c)) == 1
  {
    assert '?' !in ClauseLead(c);
    NoOccurrences('?', ClauseLead(c));
    OccurrencesAppend('?', ClauseLead(c), "?");
  }

  lemma WherePlaceholders(f: Filter)
    ensures Occurrences('?', WhereSql(f)) == |f.clauses|
  {
    var parts := seq(|f.clauses|, i requires 0 <= i < |f.clauses| => ClauseSql(f.clauses[i]));
    forall i | 0 <= i < |parts| ensures Occurrences('?', parts[i]) == 1 {
      OnePlaceholderPerClause(f.clauses[i]);
    }
    NoOccurrences('?', " AND ");
    JoinOccurrences('?', parts, " AND ");
  }

  lemma CountPrefixPlaceholders()
    ensures Occurrences('?', CountPrefix) == 0
  {
    assert '?' !in "SELECT COUNT(*) as total";
    assert '?' !in " FROM readings r WHERE ";
    NoOccurrences('?', CountPrefix);
  }

  lemma PageColumnsPlaceholders()
    ensures Occurrences('?', PageColumns) == 0
  {
    assert '?' !in "SELECT r.reading_id, ";
    assert '?' !in "r.value, r.timestamp, ";
    assert '?' !in "s.sensor_name ";
    NoOccurrences('?', PageColumns);
  }

  lemma PageSourcePlaceholders()
    ensures Occurrences('?', PageSource) == 0
  {
    assert '?' !in "FROM readings r ";
    assert '?' !in "JOIN sensors s ";
    assert '?' !in "ON r.sensor_id = ";
    assert '?' !in "s.sensor_id WHERE ";
    NoOccurrences('?', PageSource);
  }

  lemma PagePrefixPlaceholders()
    ensures Occurrences('?', PagePrefix) == 0
  {
    PageColumnsPlaceholders();
    PageSourcePlaceholders();
    OccurrencesAppend('?', PageColumns, PageSource);
  }

  lemma PageSuffixPlaceholders()
    ensures Occurrences('?', PageSuffix) == 2
  {
    var limit := OrderBy + " LIMIT ";
    assert '?' !in OrderBy;
    NoOccurrences('?', limit);
    NoOccurrences('?', " OFFSET ");
    OccurrencesAppend('?', limit, "?");
    OccurrencesAppend('?', limit + "?", " OFFSET ");
    OccurrencesAppend('?', limit + "?" + " OFFSET ", "?");
  }

  /** Each query carries exactly as many `?` placeholders as values are bound to it. */
  lemma PlaceholdersMatchParams(q: DeviceQuery, limitNum: int, offset: int)
    ensures Occurrences('?', CountSql(BuildFilter(q))) == |BuildFilter(q).params|
    ensures Occurrences('?', PageSql(BuildFilter(q))) == |PageParams(BuildFilter(q), limitNum, offset)|
  {
    var f := BuildFilter(q);
    WherePlaceholders(f);
    CountPrefixPlaceholders();
    PagePrefixPlaceholders();
    PageSuffixPlaceholders();
    OccurrencesAppend('?', CountPrefix, WhereSql(f));
    OccurrencesAppend('?', PagePrefix, WhereSql(f));
    OccurrencesAppend('?', PagePrefix + WhereSql(f), PageSuffix);
  }

  /**
   * SQL `=` on bound values: a bound `null` is NULL, which equals nothing. The
   * driver refuses a bound `undefined` before the query runs, so that case
   * never reaches a comparison; it is treated like `null` here.
   */
  predicate SqlEquals(column: JsValue, bound: JsValue) {
    column == bound && !bound.Undefined? && !bound.Null?
  }

  /** A condition with its bound value, evaluated on a reading; a time bound that is not a number matches nothing. */
  predicate Holds(c: Clause, bound: JsValue, r: Reading) {
    match c
    case DeviceIs => SqlEquals(r.deviceId, bound)
    case NotBefore => bound.Num? && r.timestamp as real >= bound.n
    case Before => bound.Num? && (r.timestamp as real) < bound.n
    case SensorIs => SqlEquals(r.sensorId, bound)
  }

  /** The conditions joined with AND. */
  predicate Matches(f: Filter, r: Reading)
    requires |f.clauses| == |f.params|
  {
    forall i :: 0 <= i < |f.clauses| ==> Holds(f.clauses[i], f.params[i], r)
  }

  /**
   * The readings the caller asks for: those of the device, at or after the
   * start date, strictly before the end date, and of the sensor, each
   * condition applying only when its argument is given.
   */
  predicate Wanted(q: DeviceQuery, r: Reading) {
    && SqlEquals(r.deviceId, q.deviceId)
    && (q.startDate.Some? ==> r.timestamp >= q.startDate.value)
    && (q.endDate.Some? ==> r.timestamp < q.endDate.value)
    && (Truthy(q.sensorId) ==> SqlEquals(r.sensorId, q.sensorId))
  }

  /** The composed WHERE clause selects exactly the wanted readings. */
  lemma FilterMeaning(q: DeviceQuery, r: Reading)
    ensures Matches(BuildFilter(q), r) <==> Wanted(q, r)
  {
    var f := BuildFilter(q);
    FilterComposition(q);
    if Matches(f, r) {
      assert Holds(f.clauses[0], f.params[0], r);
      if q.startDate.Some? {
        var i :| 0 <= i < |f.clauses| && f.clauses[i] == NotBefore;
        assert Holds(f.clauses[i], f.params[i], r);
      }
      if q.endDate.Some? {
        var i :| 0 <= i < |f.clauses| && f.clauses[i] == Before;
        assert Holds(f.clauses[i], f.params[i], r);
      }
      if Truthy(q.sensorId) {
        var i :| 0 <= i < |f.clauses| && f.clauses[i] == SensorIs;
        assert Holds(f.clauses[i], f.params[i], r);
      }
    }
    if Wanted(q, r) {
      forall i | 0 <= i < |f.clauses| ensures Holds(f.clauses[i], f.params[i], r) {
        assert f.clauses[i] in f.clauses;
      }
    }
  }

  /** The rows a WHERE clause selects, in table order. */
  function SelectWhere(rows: seq<Reading>, f: Filter): (r: seq<Reading>)
    requires |f.clauses| == |f.params|
    ensures |r| <= |rows|
    decreases |rows|
  {
    if |rows| == 0 then []
    else (if Matches(f, rows[0]) then [rows[0]] else []) + SelectWhere(rows[1..], f)
  }

  /** The wanted readings, in table order. */
  function KeepWanted(rows: seq<Reading>, q: DeviceQuery): (r: seq<Reading>)
    ensures forall x :: x in r <==> x in rows && Wanted(q, x)
    ensures |r| <= |rows|
    decreases |rows|
  {
    if |rows| == 0 then []
    else (if Wanted(q, rows[0]) then [rows[0]] else []) + KeepWanted(rows[1..], q)
  }

  /** Running the composed WHERE clause against a table yields exactly the wanted readings, in order. */
  lemma {:induction false} SelectIsWanted(rows: seq<Reading>, q: DeviceQuery)
    ensures SelectWhere(rows, BuildFilter(q)) == KeepWanted(rows, q)
    decreases |rows|
  {
    if |rows| > 0 {
      FilterMeaning(q, rows[0]);
      SelectIsWanted(rows[1..], q);
    }
  }
}

=== FILE: required_params.dfy ===
/**
 * The `validateRequiredParams(requiredParams)` middleware: before a handler
 * runs, it checks that every named query-string (or body) parameter is
 * present and truthy, and answers 400 with the list of missing names
 * otherwise.
 */
module RequiredParams {
  import opened Wrappers
  import opened JsValues
  import opened Text

  /** The middleware's configuration: `{ query: [...] }`, `{ body: [...] }` or both. */
  datatype Required = Required(query: Option<seq<string>>, body: Option<seq<string>>)

  /** The parts of the request the middleware reads: `req.query` and `req.body`. */
  datatype Request = Request(query: JsValue, body: JsValue)

  /** What the middleware does with a request. */
  datatype Decision =
    | Reject(status: int, message: string)  // `res.status(status).json({ error: message })`
    | CallNext                              // `next()`: the handler runs
    | Throws                                // a TypeError escapes the middleware

  const MissingPrefix: string := "Missing required parameters: "

  /** `source[name]` is defined and truthy, so the parameter counts as given. */
  predicate Provided(source: JsValue, name: string) {
    var p := Property(source, name);
    p.Some? && Truthy(p.value)
  }

  /**
   * `names.filter(param => !source[param])`. Reading a property of an
   * undefined or null `source` throws, which happens as soon as there is a
   * name to look up (`None`).
   */
  function Missing(names: seq<string>, source: JsValue): (r: Option<seq<string>>)
    ensures r.None? <==> |names| > 0 && (source.Undefined? || source.Null?)
    ensures r.Some? ==> |r.value| <= |names|
    decreases |names|
  {
    if |names| == 0 then Some([])
    else if source.Undefined? || source.Null? then None
    else
      var rest := Missing(names[1..], source).value;
      if Provided(source, names[0]) then Some(rest) else Some([names[0]] + rest)
  }

  /** The filter keeps exactly the names not given, so it is empty exactly when all are given. */
  lemma {:induction false} MissingMembers(names: seq<string>, source: JsValue)
    requires Missing(names, source).Some?
    ensures forall x :: x in Missing(names, source).value <==> x in names && !Provided(source, x)
    ensures Missing(names, source).value == [] <==> forall x :: x in names ==> Provided(source, x)
    decreases |names|
  {
    if |names| > 0 {
      MissingMembers(names[1..], source);
      assert forall x :: x in names <==> x == names[0] || x in names[1..];
    }
  }

  /** Filtering keeps the order of the names: it distributes over concatenation. */
  lemma {:induction false} MissingAppend(a: seq<string>, b: seq<string>, source: JsValue)
    requires Missing(a + b, source).Some?
    ensures Missing(a, source).Some? && Missing(b, source).Some?
    ensures Missing(a + b, source).value == Missing(a, source).value + Missing(b, source).value
    decreases |a|
  {
    if |a| == 0 {
      assert a + b == b;
    } else {
      assert (a + b)[0] == a[0] && (a + b)[1..] == a[1..] + b;
      MissingAppend(a[1..], b, source);
    }
  }

  /** The list the middleware ends up checking: the body list when there is one, else the query list. */
  function Checked(required: Required): Option<seq<string>> {
    if required.body.Some? then required.body else required.query
  }

  /** The request part the checked list is looked up in. */
  function Source(required: Required, req: Request): JsValue {
    if required.body.Some? then req.body else req.query
  }

  /** Answer with the missing names, or pass the request on when there are none. */
  function Conclude(missing: seq<string>): (d: Decision)
    ensures !d.Throws?
    ensures d.CallNext? <==> missing == []
    ensures d.Reject? ==> d.status == 400 && d.message == MissingPrefix + Join(missing, ", ")
  {
    if |missing| > 0 then Reject(400, MissingPrefix + Join(missing, ", ")) else CallNext
  }

  /**
   * The middleware on one request. The query list is filtered first, then
   * the body list, whose result replaces the query's; with neither list,
   * `missingParams` stays undefined and reading its length throws.
   */
  function Validate(required: Required, req: Request): (d: Decision)
    ensures d.Throws? <==>
      || (required.query.None? && required.body.None?)
      || (required.query.Some? && Missing(required.query.value, req.query).None?)
      || (required.body.Some? && Missing(required.body.value, req.body).None?)
    ensures !d.Throws? ==> Checked(required).Some?
    ensures d.CallNext? <==>
      && !d.Throws?
      && forall x :: x in Checked(required).value ==> Provided(Source(required, req), x)
    ensures d.Reject? ==>
      && d.status == 400
      && exists missing: seq<string> ::
        && missing != []
        && d.message == MissingPrefix + Join(missing, ", ")
        && forall x :: x in missing <==> x in Checked(required).value && !Provided(Source(required, req), x)
    ensures d.Reject? ==>
      && Missing(Checked(required).value, Source(required, req)).Some?
      && d == Conclude(Missing(Checked(required).value, Source(required, req)).value)
  {
    var fromQuery := if required.query.Some? then Missing(required.query.value, req.query) else Some([]);
    if fromQuery.None? then Throws
    else if required.body.Some? then
      match Missing(required.body.value, req.body)
      case None => Throws
      case Some(missing) =>
        MissingMembers(required.body.value, req.body);
        Conclude(missing)
    else if required.query.Some? then
      MissingMembers(required.query.value, req.query);
      Conclude(fromQuery.value)
    else Throws
  }

  /**
   * Once both lists are configured and the query list can be read, the
   * query parameters play no part: only the body list decides.
   */
  lemma BodyListOverridesQuery(required: Required, req: Request)
    requires required.body.Some?
    requires required.query.Some? ==> Missing(required.query.value, req.query).Some?
    ensures Validate(required, req) == Validate(required.(query := None), req)
  {
  }

  /** With only a query list configured, the request body is never read. */
  lemma QueryListIgnoresBody(required: Required, req: Request, body: JsValue)
    requires required.body.None?
    ensures Validate(required, req) == Validate(required, req.(body := body))
  {
  }
}

=== FILE: retrieval.dfy ===
/**
 * The read side of the reading service: the most recent readings
 * (`getReadings`) and one page of a device's readings with its totals
 * (`getReadingsByDevice`).
 */
module Retrieval {
  import opened Wrappers
  import opened JsValues
  import opened Store
  import opened Pagination
  import opened QueryPlan

  /**
   * `getReadings(count)` where `count` is what `parseInt(count, 10)`
   * returned and `ties` is how the store ranks readings that share a
   * timestamp. The store refuses a LIMIT that is NaN, negative or beyond
   * its 64-bit range.
   */
  function GetReadings(count: Option<int>, db: Db, faults: set<Step>, ties: TieOrder): (o: Outcome<seq<Reading>>)
    ensures ReleasedOnce(o.calls, faults)
    ensures o.result.Success? <==>
      Connect !in faults && SelectRecent !in faults && count.Some? && 0 <= count.value <= MaxRowCount
    ensures o.result.Success? ==> |o.result.value| == Min(count.value, |db.readings|)
    ensures o.result.Success? ==> NewestFirst(o.result.value)
    ensures o.result.Success? ==> multiset(o.result.value) <= multiset(db.readings)
    ensures o.result.Success? ==>
      forall x, y :: x in o.result.value && y in multiset(db.readings) - multiset(o.result.value) ==>
        x.timestamp >= y.timestamp
  {
    if Connect in faults then
      Outcome(Failure(StorageError(Connect)), [Connect])
    else
      SessionReleasedOnce([SelectRecent], faults);
      if SelectRecent in faults || count.None? || count.value < 0 || count.value > MaxRowCount then
        Outcome(Failure(StorageError(SelectRecent)), Session([SelectRecent]))
      else
        var sorted := SortNewestFirst(db.readings, ties);
        var k := Min(count.value, |sorted|);
        NewestPrefix(sorted, k);
        Outcome(Success(sorted[..k]), Session([SelectRecent]))
  }

  /** What a prefix leaves out of a list is the rest of the list. */
  lemma PrefixRemainder(s: seq<Reading>, k: nat)
    requires k <= |s|
    ensures multiset(s[..k]) <= multiset(s)
    ensures multiset(s) - multiset(s[..k]) == multiset(s[k..])
  {
    assert s == s[..k] + s[k..];
  }

  /** In a newest-first list, everything before position `k` is no older than anything from `k` on. */
  lemma NewerBeforeSplit(s: seq<Reading>, k: nat, x: Reading, y: Reading)
    requires NewestFirst(s) && k <= |s|
    requires x in s[..k] && y in s[k..]
    ensures x.timestamp >= y.timestamp
  {
    var i :| 0 <= i < k && s[..k][i] == x;
    var j :| 0 <= j < |s| - k && s[k..][j] == y;
    assert s[i] == x && s[k + j] == y;
  }

  /** A prefix of a newest-first list is newest-first and no older than anything left out. */
  lemma NewestPrefix(s: seq<Reading>, k: nat)
    requires NewestFirst(s) && k <= |s|
    ensures NewestFirst(s[..k])
    ensures multiset(s[..k]) <= multiset(s)
    ensures forall x, y :: x in s[..k] && y in multiset(s) - multiset(s[..k]) ==> x.timestamp >= y.timestamp
  {
    PrefixRemainder(s, k);
    forall x, y | x in s[..k] && y in multiset(s) - multiset(s[..k]) ensures x.timestamp >= y.timestamp {
      assert y in multiset(s[k..]);
      NewerBeforeSplit(s, k, x, y);
    }
  }

  /** One row of a page: the reading joined with its sensor's name. */
  datatype PageRow = PageRow(readingId: int, value: JsValue, timestamp: int, sensorName: string)

  /** `{ data, total, totalPages, currentPage }` */
  datatype PageResult = PageResult(data: seq<PageRow>, total: nat, totalPages: int, currentPage: int)

  /** The readings the inner join keeps: those whose sensor exists, in their order. */
  function WithKnownSensor(rows: seq<Reading>, sensors: map<JsValue, string>): (r: seq<Reading>)
    ensures |r| <= |rows|
    ensures forall i :: 0 <= i < |r| ==> r[i].sensorId in sensors
    decreases |rows|
  {
    if |rows| == 0 then []
    else
      var rest := WithKnownSensor(rows[1..], sensors);
      if rows[0].sensorId in sensors then [rows[0]] + rest else rest
  }

  /** The join keeps exactly the readings whose sensor exists. */
  lemma {:induction false} KnownSensorMembers(rows: seq<Reading>, sensors: map<JsValue, string>)
    ensures forall x :: x in WithKnownSensor(rows, sensors) <==> x in rows && x.sensorId in sensors
    decreases |rows|
  {
    if |rows| > 0 {
      KnownSensorMembers(rows[1..], sensors);
      assert forall x :: x in rows <==> x == rows[0] || x in rows[1..];
    }
  }

  /** The join keeps the newest-first order. */
  lemma {:induction false} KnownSensorOrder(rows: seq<Reading>, sensors: map<JsValue, string>)
    requires NewestFirst(rows)
    ensures NewestFirst(WithKnownSensor(rows, sensors))
    decreases |rows|
  {
    if |rows| > 0 {
      var rest := WithKnownSensor(rows[1..], sensors);
      assert NewestFirst(rows[1..]);
      KnownSensorOrder(rows[1..], sensors);
      KnownSensorMembers(rows[1..], sensors);
      if rows[0].sensorId in sensors {
        forall j | 0 < j < |[rows[0]] + rest| ensures rows[0].timestamp >= ([rows[0]] + rest)[j].timestamp {
          assert rest[j - 1] in rows[1..];
        }
      }
    }
  }

  /** When every reading's sensor exists, the join keeps them all. */
  lemma {:induction false} KnownSensorAll(rows: seq<Reading>, sensors: map<JsValue, string>)
    requires forall i :: 0 <= i < |rows| ==> rows[i].sensorId in sensors
    ensures WithKnownSensor(rows, sensors) == rows
    decreases |rows|
  {
    if |rows| > 0 {
      assert rows[0].sensorId in sensors;
      assert forall i :: 0 <= i < |rows[1..]| ==> rows[1..][i] == rows[i + 1];
      KnownSensorAll(rows[1..], sensors);
      assert [rows[0]] + rows[1..] == rows;
    }
  }

  /** `JOIN sensors s ON r.sensor_id = s.sensor_id` with the selected columns. */
  function JoinSensors(rows: seq<Reading>, sensors: map<JsValue, string>): (data: seq<PageRow>)
    requires forall i :: 0 <= i < |rows| ==> rows[i].sensorId in sensors
    ensures |data| == |rows|
    ensures forall i :: 0 <= i < |rows| ==>
      data[i] == PageRow(rows[i].id, rows[i].value, rows[i].timestamp, sensors[rows[i].sensorId])
  {
    seq(|rows|, i requires 0 <= i < |rows| =>
      PageRow(rows[i].id, rows[i].value, rows[i].timestamp, sensors[rows[i].sensorId]))
  }

  predicate RowsNewestFirst(data: seq<PageRow>) {
    forall i, j :: 0 <= i < j < |data| ==> data[i].timestamp >= data[j].timestamp
  }

  /** The rows the WHERE clause selects, newest first, with ties ranked by `ties`. */
  function SortedSelection(q: DeviceQuery, db: Db, ties: TieOrder): (sorted: seq<Reading>)
    ensures NewestFirst(sorted)
    ensures multiset(sorted) == multiset(KeepWanted(db.readings, q))
  {
    SelectIsWanted(db.readings, q);
    SortNewestFirst(SelectWhere(db.readings, BuildFilter(q)), ties)
  }

  /**
   * Every page row one page query can return, in order: the rows the WHERE
   * clause selects, newest first with ties ranked by `ties`, joined with
   * their sensor's name.
   */
  function Listing(q: DeviceQuery, db: Db, ties: TieOrder): seq<PageRow> {
    JoinSensors(WithKnownSensor(SortedSelection(q, db, ties), db.sensors), db.sensors)
  }

  /** The listing is newest first. */
  lemma ListingOrder(q: DeviceQuery, db: Db, ties: TieOrder)
    ensures RowsNewestFirst(Listing(q, db, ties))
  {
    var joined := WithKnownSensor(SortedSelection(q, db, ties), db.sensors);
    var data := Listing(q, db, ties);
    KnownSensorOrder(SortedSelection(q, db, ties), db.sensors);
    forall i, j | 0 <= i < j < |data| ensures data[i].timestamp >= data[j].timestamp {
      assert data[i].timestamp == joined[i].timestamp && data[j].timestamp == joined[j].timestamp;
    }
  }

  /** The listing has at most one row per wanted reading, and exactly one when every reading's sensor exists. */
  lemma ListingSize(q: DeviceQuery, db: Db, ties: TieOrder)
    ensures |Listing(q, db, ties)| <= |KeepWanted(db.readings, q)|
    ensures SensorsKnown(db) ==> |Listing(q, db, ties)| == |KeepWanted(db.readings, q)|
  {
    var sorted := SortedSelection(q, db, ties);
    assert |sorted| == |KeepWanted(db.readings, q)| by {
      assert |multiset(sorted)| == |multiset(KeepWanted(db.readings, q))|;
    }
    if SensorsKnown(db) {
      forall i | 0 <= i < |sorted| ensures sorted[i].sensorId in db.sensors {
        assert sorted[i] in multiset(sorted);
        assert sorted[i] in KeepWanted(db.readings, q);
        assert sorted[i] in db.readings;
        var k :| 0 <= k < |db.readings| && db.readings[k] == sorted[i];
      }
      KnownSensorAll(sorted, db.sensors);
    }
  }

  /** The sorted selection holds only wanted readings of the table. */
  lemma SelectionWanted(q: DeviceQuery, db: Db, ties: TieOrder)
    ensures forall x :: x in SortedSelection(q, db, ties) ==> x in db.readings && Wanted(q, x)
  {
    var sorted := SortedSelection(q, db, ties);
    forall x | x in sorted ensures x in db.readings && Wanted(q, x) {
      assert x in multiset(sorted);
      assert x in KeepWanted(db.readings, q);
    }
  }

  /** Every row of the listing is a wanted reading of the table. */
  lemma ListingProvenance(q: DeviceQuery, db: Db, ties: TieOrder)
    ensures forall i :: 0 <= i < |Listing(q, db, ties)| ==>
      exists r :: r in db.readings && Wanted(q, r) && Listing(q, db, ties)[i].readingId == r.id
  {
    var sorted := SortedSelection(q, db, ties);
    var joined := WithKnownSensor(sorted, db.sensors);
    var data := Listing(q, db, ties);
    KnownSensorMembers(sorted, db.sensors);
    SelectionWanted(q, db, ties);
    forall i | 0 <= i < |data|
      ensures exists r :: r in db.readings && Wanted(q, r) && data[i].readingId == r.id
    {
      var r := joined[i];
      assert r in joined;
      assert data[i].readingId == r.id;
    }
  }

  /** A page of newest-first rows is newest first. */
  lemma PageKeepsOrder(rows: seq<PageRow>, pageNum: int, limitNum: int)
    requires pageNum >= 1 && limitNum >= 1 && RowsNewestFirst(rows)
    ensures RowsNewestFirst(PageOf(rows, pageNum, limitNum))
  {
    var offset := Offset(pageNum, limitNum);
    var data := PageOf(rows, pageNum, limitNum);
    assert data == Slice(rows, offset, limitNum);
    forall i, j | 0 <= i < j < |data| ensures data[i].timestamp >= data[j].timestamp {
      assert data[i] == rows[offset + i] && data[j] == rows[offset + j];
    }
  }

  /** A page of the listing is newest first, and empty when no reading is wanted. */
  lemma PageOfListing(q: DeviceQuery, db: Db, ties: TieOrder, pageNum: int, limitNum: int)
    requires pageNum >= 1 && limitNum >= 1
    ensures RowsNewestFirst(PageOf(Listing(q, db, ties), pageNum, limitNum))
    ensures |KeepWanted(db.readings, q)| == 0 ==> PageOf(Listing(q, db, ties), pageNum, limitNum) == []
  {
    ListingOrder(q, db, ties);
    ListingSize(q, db, ties);
    PageKeepsOrder(Listing(q, db, ties), pageNum, limitNum);
  }

  /**
   * The answer once both queries have run: the count of rows the WHERE
   * clause selects, and page `pageNum` of the listing.
   */
  function ServedPage(q: DeviceQuery, db: Db, ties: TieOrder, pageNum: int, limitNum: int): (page: PageResult)
    requires pageNum >= 1 && limitNum >= 1
    ensures page.currentPage == pageNum
    ensures |page.data| <= limitNum
    ensures page.total == |KeepWanted(db.readings, q)|
    ensures page.totalPages == TotalPages(page.total, limitNum)
    ensures page.total == 0 ==> page.data == []
    ensures RowsNewestFirst(page.data)
    ensures page.data == PageOf(Listing(q, db, ties), pageNum, limitNum)
  {
    var total := |SelectWhere(db.readings, BuildFilter(q))|;
    SelectIsWanted(db.readings, q);
    PageOfListing(q, db, ties, pageNum, limitNum);
    PageResult(PageOf(Listing(q, db, ties), pageNum, limitNum), total, TotalPages(total, limitNum), pageNum)
  }

  /**
   * `getReadingsByDevice(q)`: count the wanted readings, then fetch page
   * `pageNum` of `limitNum` rows, newest first, the store ranking ties by
   * `ties`. The driver refuses an `undefined` bound value, which a missing
   * device id produces, and the store refuses a LIMIT or OFFSET that is
   * negative, which a negative page or limit produces, or beyond its 64-bit
   * range.
   */
  function GetReadingsByDevice(q: DeviceQuery, db: Db, faults: set<Step>, ties: TieOrder): (o: Outcome<PageResult>)
    ensures ReleasedOnce(o.calls, faults)
    ensures o.result.Success? <==>
      && Connect !in faults && CountMatches !in faults && SelectPage !in faults
      && !q.deviceId.Undefined? && PageNumber(q.page) > 0 && LimitNumber(q.limit) > 0
      && LimitNumber(q.limit) <= MaxRowCount && Offset(PageNumber(q.page), LimitNumber(q.limit)) <= MaxRowCount
    ensures o.result.Success? ==>
      var page := o.result.value;
      && page.currentPage == PageNumber(q.page)
      && |page.data| <= LimitNumber(q.limit)
      && page.total == |KeepWanted(db.readings, q)|
      && page.totalPages == TotalPages(page.total, LimitNumber(q.limit))
      && (page.total == 0 ==> page.data == [])
      && RowsNewestFirst(page.data)
      && page.data == PageOf(Listing(q, db, ties), PageNumber(q.page), LimitNumber(q.limit))
  {
    if Connect in faults then
      Outcome(Failure(StorageError(Connect)), [Connect])
    else
      var pageNum := PageNumber(q.page);
      var limitNum := LimitNumber(q.limit);
      var offset := Offset(pageNum, limitNum);
      if CountMatches in faults || q.deviceId.Undefined? then
        SessionReleasedOnce([CountMatches], faults);
        Outcome(Failure(StorageError(CountMatches)), Session([CountMatches]))
      else
        SessionReleasedOnce([CountMatches, SelectPage], faults);
        if SelectPage in faults || limitNum < 0 || offset < 0 || limitNum > MaxRowCount || offset > MaxRowCount then
          Outcome(Failure(StorageError(SelectPage)), Session([CountMatches, SelectPage]))
        else
          Outcome(Success(ServedPage(q, db, ties, pageNum, limitNum)), Session([CountMatches, SelectPage]))
  }

  /** The data of page `pageNum` of the query, or nothing when that request fails. */
  function PageData(q: DeviceQuery, db: Db, faults: set<Step>, ties: TieOrder, pageNum: int): seq<PageRow> {
    var o := GetReadingsByDevice(q.(page := Some(pageNum)), db, faults, ties);
    if o.result.Success? then o.result.value.data else []
  }

  /**
   * The data of pages `first`, `first + 1`, ... (`count` of them) of the same
   * query, each fetched by a request of its own in which the store ranks ties
   * by `ties(p)`, concatenated.
   */
  function PagesData(q: DeviceQuery, db: Db, faults: set<Step>, ties: int -> TieOrder, first: int, count: nat): seq<PageRow>
  {
    Concat(p => PageData(q, db, faults, ties(p), p), first, count)
  }

  /** The page and the limit do not change which rows the listing holds. */
  lemma ListingIgnoresPaging(q: DeviceQuery, p: DeviceQuery, db: Db, ties: TieOrder)
    requires p == q.(page := p.page, limit := p.limit)
    ensures Listing(p, db, ties) == Listing(q, db, ties)
  {
    assert BuildFilter(p) == BuildFilter(q);
    assert SortedSelection(p, db, ties) == SortedSelection(q, db, ties);
  }

  /** Page `pageNum` of a query is the `pageNum`-th slice of the listing that request's tie order gives. */
  lemma PageIsSlice(q: DeviceQuery, db: Db, faults: set<Step>, ties: TieOrder, pageNum: int)
    requires pageNum >= 1 && LimitNumber(q.limit) > 0 && !q.deviceId.Undefined?
    requires LimitNumber(q.limit) <= MaxRowCount && |db.readings| <= MaxRowCount
    requires Connect !in faults && CountMatches !in faults && SelectPage !in faults
    ensures PageData(q, db, faults, ties, pageNum) == PageOf(Listing(q, db, ties), pageNum, LimitNumber(q.limit))
  {
    var p := q.(page := Some(pageNum));
    assert PageNumber(p.page) == pageNum && LimitNumber(p.limit) == LimitNumber(q.limit);
    ListingIgnoresPaging(q, p, db, ties);
    ListingSize(q, db, ties);
  }

  /** When every request of a run of pages sees the same listing, the pages are that listing's slices. */
  lemma PagesDataAreSlices(q: DeviceQuery, db: Db, faults: set<Step>, ties: int -> TieOrder,
                           first: int, count: nat, listing: seq<PageRow>)
    requires first >= 1 && LimitNumber(q.limit) > 0 && !q.deviceId.Undefined?
    requires LimitNumber(q.limit) <= MaxRowCount && |db.readings| <= MaxRowCount
    requires Connect !in faults && CountMatches !in faults && SelectPage !in faults
    requires forall p :: first <= p < first + count ==> Listing(q, db, ties(p)) == listing
    ensures PagesData(q, db, faults, ties, first, count) == Pages(listing, LimitNumber(q.limit), first, count)
  {
    var page := p => PageData(q, db, faults, ties(p), p);
    forall p | first <= p < first + count
      ensures page(p) == PageOf(listing, p, LimitNumber(q.limit))
    {
      PageIsSlice(q, db, faults, ties(p), p);
    }
    ConcatOfPages(page, listing, LimitNumber(q.limit), first, count);
  }

  /** Which readings are wanted does not depend on the page or the limit. */
  lemma {:induction false} KeepWantedIgnoresPaging(rows: seq<Reading>, q: DeviceQuery, p: DeviceQuery)
    requires p == q.(page := p.page, limit := p.limit)
    ensures KeepWanted(rows, p) == KeepWanted(rows, q)
    decreases |rows|
  {
    if |rows| > 0 {
      KeepWantedIgnoresPaging(rows[1..], q, p);
    }
  }

  /**
   * The pages 1 to `totalPages` of a query, fetched one request each, when
   * every request sees the listing of the first: they concatenate to that
   * listing, which holds `total` rows.
   */
  lemma AgreeingPagesPartition(q: DeviceQuery, db: Db, faults: set<Step>, ties: int -> TieOrder)
    requires LimitNumber(q.limit) > 0 && !q.deviceId.Undefined? && SensorsKnown(db)
    requires LimitNumber(q.limit) <= MaxRowCount && |db.readings| <= MaxRowCount
    requires Connect !in faults && CountMatches !in faults && SelectPage !in faults
    requires forall p :: p >= 1 ==> Listing(q, db, ties(p)) == Listing(q, db, ties(1))
    ensures GetReadingsByDevice(q.(page := Some(1)), db, faults, ties(1)).result.Success?
    ensures var first := GetReadingsByDevice(q.(page := Some(1)), db, faults, ties(1)).result.value;
      && PagesData(q, db, faults, ties, 1, first.totalPages) == Listing(q, db, ties(1))
      && |Listing(q, db, ties(1))| == first.total
  {
    var p := q.(page := Some(1));
    var first := GetReadingsByDevice(p, db, faults, ties(1)).result.value;
    var limitNum := LimitNumber(q.limit);
    var listing := Listing(q, db, ties(1));
    KeepWantedIgnoresPaging(db.readings, q, p);
    ListingSize(q, db, ties(1));
    assert first.totalPages == TotalPages(|listing|, limitNum);
    PagesDataAreSlices(q, db, faults, ties, 1, first.totalPages, listing);
    PagesPartition(listing, limitNum);
  }

  /**
   * With a positive page size, every reading's sensor present, and the store
   * ranking ties the same way in every request, pages 1 to `totalPages`,
   * fetched one by one, concatenate to the whole newest-first result, and
   * that result holds `total` rows: no reading is skipped and none is
   * returned twice.
   */
  lemma ByDevicePagesPartition(q: DeviceQuery, db: Db, faults: set<Step>, ties: TieOrder)
    requires LimitNumber(q.limit) > 0 && !q.deviceId.Undefined? && SensorsKnown(db)
    requires LimitNumber(q.limit) <= MaxRowCount && |db.readings| <= MaxRowCount
    requires Connect !in faults && CountMatches !in faults && SelectPage !in faults
    ensures GetReadingsByDevice(q.(page := Some(1)), db, faults, ties).result.Success?
    ensures var first := GetReadingsByDevice(q.(page := Some(1)), db, faults, ties).result.value;
      && PagesData(q, db, faults, _ => ties, 1, first.totalPages) == Listing(q, db, ties)
      && |Listing(q, db, ties)| == first.total
  {
    AgreeingPagesPartition(q, db, faults, _ => ties);
  }

  /**
   * When no two wanted readings share a timestamp, the tie order plays no
   * part: every request sees the same listing.
   */
  lemma ListingsAgree(q: DeviceQuery, db: Db, t1: TieOrder, t2: TieOrder)
    requires DistinctTimes(KeepWanted(db.readings, q))
    ensures Listing(q, db, t1) == Listing(q, db, t2)
  {
    var s1 := SortedSelection(q, db, t1);
    var s2 := SortedSelection(q, db, t2);
    forall x, y | x in s1 && y in s1 && x.timestamp == y.timestamp ensures x == y {
      assert x in multiset(s1) && y in multiset(s1);
    }
    NewestFirstUnique(s1, s2);
  }

  /**
   * When no two wanted readings share a timestamp, pages 1 to `totalPages`
   * partition the listing however the store ranks ties in each request.
   */
  lemma DistinctTimesPagesPartition(q: DeviceQuery, db: Db, faults: set<Step>, ties: int -> TieOrder)
    requires LimitNumber(q.limit) > 0 && !q.deviceId.Undefined? && SensorsKnown(db)
    requires LimitNumber(q.limit) <= MaxRowCount && |db.readings| <= MaxRowCount
    requires Connect !in faults && CountMatches !in faults && SelectPage !in faults
    requires DistinctTimes(KeepWanted(db.readings, q))
    ensures GetReadingsByDevice(q.(page := Some(1)), db, faults, ties(1)).result.Success?
    ensures var first := GetReadingsByDevice(q.(page := Some(1)), db, faults, ties(1)).result.value;
      && PagesData(q, db, faults, ties, 1, first.totalPages) == Listing(q, db, ties(1))
      && |Listing(q, db, ties(1))| == first.total
  {
    forall p | p >= 1 ensures Listing(q, db, ties(p)) == Listing(q, db, ties(1)) {
      ListingsAgree(q, db, ties(p), ties(1));
    }
    AgreeingPagesPartition(q, db, faults, ties);
  }

  /** A store that ranks ties by ascending id on page 1 and by descending id on any other page. */
  function FlipAfterFirst(p: int): TieOrder {
    if p == 1 then (r: Reading) => r.id else (r: Reading) => -r.id
  }

  /** Two readings of a table that holds nothing else, wanted by the query and tied in time. */
  predicate TiedPair(q: DeviceQuery, db: Db, a: Reading, b: Reading) {
    && db.readings == [a, b] && a.id < b.id && a.timestamp == b.timestamp
    && Wanted(q, a) && Wanted(q, b)
    && a.sensorId in db.sensors && b.sensorId in db.sensors
  }

  /** `r` as a page row. */
  function RowOf(r: Reading, db: Db): PageRow
    requires r.sensorId in db.sensors
  {
    PageRow(r.id, r.value, r.timestamp, db.sensors[r.sensorId])
  }

  /** The selection is the wanted readings of the table, sorted. */
  lemma SelectionSortsWanted(q: DeviceQuery, db: Db, ties: TieOrder)
    ensures SortedSelection(q, db, ties) == SortNewestFirst(KeepWanted(db.readings, q), ties)
  {
    SelectIsWanted(db.readings, q);
  }

  lemma TiedWanted(q: DeviceQuery, db: Db, a: Reading, b: Reading)
    requires TiedPair(q, db, a, b)
    ensures KeepWanted(db.readings, q) == [a, b]
  {
    assert [a, b][1..] == [b] && [b][1..] == [];
    assert KeepWanted([b], q) == [b];
  }

  lemma TiedSelections(q: DeviceQuery, db: Db, a: Reading, b: Reading)
    requires TiedPair(q, db, a, b)
    ensures KeepWanted(db.readings, q) == [a, b]
    ensures SortedSelection(q, db, FlipAfterFirst(1)) == [a, b]
    ensures SortedSelection(q, db, FlipAfterFirst(2)) == [b, a]
  {
    TiedWanted(q, db, a, b);
    SelectionSortsWanted(q, db, FlipAfterFirst(1));
    SelectionSortsWanted(q, db, FlipAfterFirst(2));
    assert Precedes(a, b, FlipAfterFirst(1));
    assert !Precedes(a, b, FlipAfterFirst(2));
    SortPair(a, b, FlipAfterFirst(1));
    SortPair(a, b, FlipAfterFirst(2));
  }

  /** Joining two readings with their sensors gives their two rows. */
  lemma JoinPair(x: Reading, y: Reading, db: Db)
    requires x.sensorId in db.sensors && y.sensorId in db.sensors
    ensures JoinSensors(WithKnownSensor([x, y], db.sensors), db.sensors) == [RowOf(x, db), RowOf(y, db)]
  {
    KnownSensorAll([x, y], db.sensors);
  }

  lemma TiedListings(q: DeviceQuery, db: Db, a: Reading, b: Reading)
    requires TiedPair(q, db, a, b)
    ensures Listing(q, db, FlipAfterFirst(1)) == [RowOf(a, db), RowOf(b, db)]
    ensures Listing(q, db, FlipAfterFirst(2)) == [RowOf(b, db), RowOf(a, db)]
  {
    TiedSelections(q, db, a, b);
    JoinPair(a, b, db);
    JoinPair(b, a, db);
  }

  /** The first page of a tied pair, one row per page: two wanted readings, so two pages. */
  lemma TiedFirstPage(q: DeviceQuery, db: Db, a: Reading, b: Reading)
    requires TiedPair(q, db, a, b) && q.limit == Some(1) && !q.deviceId.Undefined?
    ensures var first := GetReadingsByDevice(q.(page := Some(1)), db, {}, FlipAfterFirst(1));
      && first.result.Success? && first.result.value.total == 2 && first.result.value.totalPages == 2
  {
    var p := q.(page := Some(1));
    TiedSelections(q, db, a, b);
    KeepWantedIgnoresPaging(db.readings, q, p);
    assert PageNumber(p.page) == 1 && LimitNumber(p.limit) == 1;
    var first := GetReadingsByDevice(p, db, {}, FlipAfterFirst(1));
    assert first.result.value.total == |KeepWanted(db.readings, p)| == 2;
    assert TotalPages(2, 1) == 2;
  }

  /** Page 1, ranked by ascending id, holds the older-id reading. */
  lemma TiedPageOne(q: DeviceQuery, db: Db, a: Reading, b: Reading)
    requires TiedPair(q, db, a, b) && q.limit == Some(1) && !q.deviceId.Undefined?
    ensures PageData(q, db, {}, FlipAfterFirst(1), 1) == [RowOf(a, db)]
  {
    TiedListings(q, db, a, b);
    PageIsSlice(q, db, {}, FlipAfterFirst(1), 1);
    assert PageOf([RowOf(a, db), RowOf(b, db)], 1, 1) == [RowOf(a, db)];
  }

  /** Page 2, ranked by descending id, holds that same reading again. */
  lemma TiedPageTwo(q: DeviceQuery, db: Db, a: Reading, b: Reading)
    requires TiedPair(q, db, a, b) && q.limit == Some(1) && !q.deviceId.Undefined?
    ensures PageData(q, db, {}, FlipAfterFirst(2), 2) == [RowOf(a, db)]
  {
    TiedListings(q, db, a, b);
    PageIsSlice(q, db, {}, FlipAfterFirst(2), 2);
    assert PageOf([RowOf(b, db), RowOf(a, db)], 2, 1) == [RowOf(a, db)];
  }

  /** Two consecutive pages, each fetched by a request of its own. */
  lemma TwoPages(q: DeviceQuery, db: Db, faults: set<Step>, ties: int -> TieOrder, first: int)
    ensures PagesData(q, db, faults, ties, first, 2)
         == PageData(q, db, faults, ties(first), first) + PageData(q, db, faults, ties(first + 1), first + 1)
  {
    var page := p => PageData(q, db, faults, ties(p), p);
    assert PagesData(q, db, faults, ties, first, 2) == page(first) + (page(first + 1) + Concat(page, first + 2, 0));
  }

  /**
   * Take two wanted readings that share a timestamp, one row per page, and a
   * store that ranks them one way for page 1 and the other way for page 2.
   * `total` and `totalPages` are both 2, yet pages 1 and 2 return the same
   * reading twice and never the other one.
   */
  lemma TiedPagesRepeat(q: DeviceQuery, db: Db, a: Reading, b: Reading)
    requires TiedPair(q, db, a, b) && q.limit == Some(1) && !q.deviceId.Undefined?
    ensures var first := GetReadingsByDevice(q.(page := Some(1)), db, {}, FlipAfterFirst(1));
      && first.result.Success? && first.result.value.total == 2 && first.result.value.totalPages == 2
    ensures PagesData(q, db, {}, FlipAfterFirst, 1, 2) == [RowOf(a, db), RowOf(a, db)]
    ensures RowOf(b, db) !in PagesData(q, db, {}, FlipAfterFirst, 1, 2)
  {
    TiedFirstPage(q, db, a, b);
    TiedPageOne(q, db, a, b);
    TiedPageTwo(q, db, a, b);
    TwoPages(q, db, {}, FlipAfterFirst, 1);
  }

  /** Such a pair exists: one batch of two readings from one device and sensor, stamped at one instant. */
  lemma TiedPairExists()
    ensures var a := Reading(1, Num(1.0), Num(7.0), Num(20.0), 0);
      var b := Reading(2, Num(1.0), Num(7.0), Num(21.0), 0);
      var db := Db([a, b], 3, map[Num(7.0) := "temp"]);
      && Valid(db) && SensorsKnown(db)
      && TiedPair(DeviceQuery(Num(1.0), None, Some(1), None, None, Undefined), db, a, b)
  {
  }
}

=== FILE: store.dfy ===
/**
 * The abstract store behind the reading service: the `readings` table as an
 * append-only sequence with increasing ids, the `sensors` table as a map from
 * sensor id to name, the store calls a service operation can make, and the
 * errors an operation can surface.
 */
module Store {
  import opened Wrappers
  import opened JsValues

  /**
   * One row of `readings`. The device, sensor and value columns hold the values
   * that were bound when the row was inserted; timestamps are instants as integers.
   */
  datatype Reading = Reading(id: int, deviceId: JsValue, sensorId: JsValue, value: JsValue, timestamp: int)

  /**
   * The committed state of the database: the readings in insertion order, the
   * next auto-increment id, and the sensor names by sensor id.
   */
  datatype Db = Db(readings: seq<Reading>, nextId: int, sensors: map<JsValue, string>)

  predicate IdsIncreasing(rows: seq<Reading>) {
    forall i, j :: 0 <= i < j < |rows| ==> rows[i].id < rows[j].id
  }

  /** The auto-increment invariant: ids grow with insertion order and stay below the counter. */
  predicate Valid(db: Db) {
    && IdsIncreasing(db.readings)
    && forall i :: 0 <= i < |db.readings| ==> db.readings[i].id < db.nextId
  }

  /** Every reading refers to a sensor that exists (the foreign key on `sensor_id`). */
  predicate SensorsKnown(db: Db) {
    forall i :: 0 <= i < |db.readings| ==> db.readings[i].sensorId in db.sensors
  }

  /** The store calls a service operation makes, in the order it makes them. */
  datatype Step =
    | Connect        // db.getConnection()
    | Begin          // conn.beginTransaction()
    | Insert         // conn.batch(INSERT ...)
    | ReadBack       // SELECT LAST_INSERT_ID(), ROW_COUNT()
    | SelectRange    // SELECT * ... WHERE reading_id >= ? AND reading_id <= ?
    | Commit         // conn.commit()
    | Rollback       // conn.rollback()
    | Release        // conn.release()
    | SelectRecent   // SELECT * ... ORDER BY timestamp DESC LIMIT ?
    | CountMatches   // SELECT COUNT(*) ... WHERE ...
    | SelectPage     // SELECT ... JOIN sensors ... LIMIT ? OFFSET ?

  /**
   * What an operation surfaces: a client-fault error carrying status 400, the
   * TypeError JavaScript throws on a property access of `undefined`/`null`, or
   * the failure of a store call.
   */
  datatype Error = BadRequest(message: string) | TypeError | StorageError(failed: Step)

  /** The `statusCode` the thrown error carries, if any. */
  function StatusCode(e: Error): (code: Option<int>)
    ensures code.Some? <==> e.BadRequest?
    ensures code.Some? ==> code.value == 400
  {
    if e.BadRequest? then Some(400) else None
  }

  /** A read-only operation's result together with the store calls it made. */
  datatype Outcome<+T> = Outcome(result: Result<T, Error>, calls: seq<Step>)

  /** The operation obtained a connection: its first call was a `Connect` that did not fail. */
  predicate Acquired(calls: seq<Step>, faults: set<Step>) {
    |calls| > 0 && calls[0] == Connect && Connect !in faults
  }

  /**
   * The connection discipline of every service operation: a connection that
   * was obtained is released exactly once, as the last call, and one that was
   * not obtained is never released.
   */
  predicate ReleasedOnce(calls: seq<Step>, faults: set<Step>) {
    if Acquired(calls, faults) then calls[|calls| - 1] == Release && Release !in calls[..|calls| - 1]
    else Release !in calls
  }

  /** A connection obtained, the calls `middle` made on it, then its release. */
  function Session(middle: seq<Step>): seq<Step> {
    [Connect] + middle + [Release]
  }

  /** A session whose middle calls never release has its connection released exactly once. */
  lemma SessionReleasedOnce(middle: seq<Step>, faults: set<Step>)
    requires Release !in middle && Connect !in faults
    ensures ReleasedOnce(Session(middle), faults)
  {
    var calls := Session(middle);
    assert calls[..|calls| - 1] == [Connect] + middle;
  }

  /**
   * `SELECT * FROM readings WHERE reading_id >= lo AND reading_id <= hi`.
   * The query has no ORDER BY; the rows come back in table order, which is
   * id order, as a primary-key range scan returns them.
   */
  function SelectIdRange(rows: seq<Reading>, lo: int, hi: int): (r: seq<Reading>)
    ensures |r| <= |rows|
    decreases |rows|
  {
    if |rows| == 0 then []
    else (if lo <= rows[0].id <= hi then [rows[0]] else []) + SelectIdRange(rows[1..], lo, hi)
  }

  /** The range select returns exactly the rows whose id lies in the closed range. */
  lemma {:induction false} SelectIdRangeMembers(rows: seq<Reading>, lo: int, hi: int)
    ensures forall x :: x in SelectIdRange(rows, lo, hi) <==> x in rows && lo <= x.id <= hi
    decreases |rows|
  {
    if |rows| > 0 {
      SelectIdRangeMembers(rows[1..], lo, hi);
      assert forall x :: x in rows <==> x == rows[0] || x in rows[1..];
    }
  }

  lemma {:induction false} SelectIdRangeAppend(a: seq<Reading>, b: seq<Reading>, lo: int, hi: int)
    ensures SelectIdRange(a + b, lo, hi) == SelectIdRange(a, lo, hi) + SelectIdRange(b, lo, hi)
    decreases |a|
  {
    if |a| == 0 {
      assert a + b == b;
    } else {
      assert (a + b)[1..] == a[1..] + b;
      SelectIdRangeAppend(a[1..], b, lo, hi);
    }
  }

  /** A range that no row's id reaches selects nothing. */
  lemma {:induction false} SelectIdRangeBelow(rows: seq<Reading>, lo: int, hi: int)
    requires forall i :: 0 <= i < |rows| ==> rows[i].id < lo
    ensures SelectIdRange(rows, lo, hi) == []
    decreases |rows|
  {
    if |rows| > 0 {
      assert forall i :: 0 <= i < |rows[1..]| ==> rows[1..][i].id == rows[i + 1].id;
      SelectIdRangeBelow(rows[1..], lo, hi);
    }
  }

  /** A range holding every row's id selects all the rows. */
  lemma {:induction false} SelectIdRangeAll(rows: seq<Reading>, lo: int, hi: int)
    requires forall i :: 0 <= i < |rows| ==> lo <= rows[i].id <= hi
    ensures SelectIdRange(rows, lo, hi) == rows
    decreases |rows|
  {
    if |rows| > 0 {
      assert forall i :: 0 <= i < |rows[1..]| ==> rows[1..][i].id == rows[i + 1].id;
      SelectIdRangeAll(rows[1..], lo, hi);
      assert [rows[0]] + rows[1..] == rows;
    }
  }

  /**
   * The largest LIMIT or OFFSET the store takes: both are unsigned 64-bit
   * integers, so a larger count is refused, and so is any number JavaScript
   * writes in exponent form (from 1e21 on, well above this bound).
   */
  const MaxRowCount := 0xFFFF_FFFF_FFFF_FFFF

  /** `ORDER BY timestamp DESC`: no reading is followed by a newer one. */
  predicate NewestFirst(rows: seq<Reading>) {
    forall i, j :: 0 <= i < j < |rows| ==> rows[i].timestamp >= rows[j].timestamp
  }

  /**
   * Where the store happens to put readings that share a timestamp: lower
   * ranks first. `ORDER BY timestamp DESC` does not fix this, and every query
   * may rank differently.
   */
  type TieOrder = Reading -> int

  /** `x` may come before `y` in a query's answer: it is newer, or as new and ranked no later. */
  predicate Precedes(x: Reading, y: Reading, ties: TieOrder) {
    x.timestamp > y.timestamp || (x.timestamp == y.timestamp && ties(x) <= ties(y))
  }

  /** The rows in the order one query returns them under the tie order `ties`. */
  predicate Arranged(rows: seq<Reading>, ties: TieOrder) {
    forall i, j :: 0 <= i < j < |rows| ==> Precedes(rows[i], rows[j], ties)
  }

  /** Places `x` before the first reading it may precede. */
  function InsertByRecency(x: Reading, rows: seq<Reading>, ties: TieOrder): (r: seq<Reading>)
    requires Arranged(rows, ties)
    ensures Arranged(r, ties)
    ensures multiset(r) == multiset(rows) + multiset{x}
    decreases |rows|
  {
    if |rows| == 0 || Precedes(x, rows[0], ties) then [x] + rows
    else
      var rest := InsertByRecency(x, rows[1..], ties);
      InsertKeepsHead(x, rows, rest, ties);
      [rows[0]] + rest
  }

  /** The head of an arranged list stays in front of anything inserted behind it. */
  lemma InsertKeepsHead(x: Reading, rows: seq<Reading>, rest: seq<Reading>, ties: TieOrder)
    requires |rows| > 0 && Arranged(rows, ties) && !Precedes(x, rows[0], ties)
    requires Arranged(rest, ties) && multiset(rest) == multiset(rows[1..]) + multiset{x}
    ensures Arranged([rows[0]] + rest, ties)
    ensures multiset([rows[0]] + rest) == multiset(rows) + multiset{x}
  {
    assert rows == [rows[0]] + rows[1..];
    var r := [rows[0]] + rest;
    forall j | 0 < j < |r| ensures Precedes(r[0], r[j], ties) {
      var y := rest[j - 1];
      assert y in multiset(rest);
      if y != x {
        assert y in rows[1..];
      }
    }
  }

  /**
   * The answer to `ORDER BY timestamp DESC` when the store ranks ties by
   * `ties`: the same readings, newest first.
   */
  function SortNewestFirst(rows: seq<Reading>, ties: TieOrder): (r: seq<Reading>)
    ensures Arranged(r, ties) && NewestFirst(r)
    ensures multiset(r) == multiset(rows)
    ensures |r| == |rows|
    decreases |rows|
  {
    if |rows| == 0 then []
    else
      assert rows == [rows[0]] + rows[1..];
      InsertByRecency(rows[0], SortNewestFirst(rows[1..], ties), ties)
  }

  /** No two different readings of `rows` share a timestamp. */
  predicate DistinctTimes(rows: seq<Reading>) {
    forall x, y :: x in rows && y in rows && x.timestamp == y.timestamp ==> x == y
  }

  /** Two newest-first arrangements of the same readings, without shared timestamps, start alike. */
  lemma HeadsAgree(a: seq<Reading>, b: seq<Reading>)
    requires NewestFirst(a) && NewestFirst(b) && multiset(a) == multiset(b)
    requires DistinctTimes(a) && |a| > 0 && |b| > 0
    ensures a[0] == b[0]
  {
    assert a[0] in multiset(b) && b[0] in multiset(a);
    var k :| 0 <= k < |b| && b[k] == a[0];
    var m :| 0 <= m < |a| && a[m] == b[0];
  }

  /** What is left after a common head is the same readings again. */
  lemma DropCommonHead(a: seq<Reading>, b: seq<Reading>)
    requires |a| > 0 && |b| > 0 && a[0] == b[0] && multiset(a) == multiset(b)
    ensures multiset(a[1..]) == multiset(b[1..])
  {
    assert a == [a[0]] + a[1..] && b == [b[0]] + b[1..];
    assert multiset(a[1..]) == multiset(a) - multiset{a[0]};
    assert multiset(b[1..]) == multiset(b) - multiset{b[0]};
  }

  /** Dropping the head keeps a list newest first. */
  lemma TailNewestFirst(a: seq<Reading>)
    requires |a| > 0 && NewestFirst(a)
    ensures NewestFirst(a[1..])
  {
  }

  /** Dropping the head keeps a list free of shared timestamps. */
  lemma TailDistinct(a: seq<Reading>)
    requires |a| > 0 && DistinctTimes(a)
    ensures DistinctTimes(a[1..])
  {
    assert forall x :: x in a[1..] ==> x in a;
  }

  /** Lists with the same head and the same tail are equal. */
  lemma HeadAndTail(a: seq<Reading>, b: seq<Reading>)
    requires |a| > 0 && |b| > 0 && a[0] == b[0] && a[1..] == b[1..]
    ensures a == b
  {
    assert a == [a[0]] + a[1..] && b == [b[0]] + b[1..];
  }

  /**
   * Without shared timestamps, newest first leaves a single order: any two
   * newest-first arrangements of the same readings are equal, whatever the
   * store does with ties.
   */
  lemma {:induction false} NewestFirstUnique(a: seq<Reading>, b: seq<Reading>)
    requires NewestFirst(a) && NewestFirst(b) && multiset(a) == multiset(b)
    requires DistinctTimes(a)
    ensures a == b
    decreases |a|
  {
    assert |a| == |b| by {
      assert |multiset(a)| == |multiset(b)|;
    }
    if |a| > 0 {
      HeadsAgree(a, b);
      DropCommonHead(a, b);
      TailNewestFirst(a);
      TailNewestFirst(b);
      TailDistinct(a);
      NewestFirstUnique(a[1..], b[1..]);
      HeadAndTail(a, b);
    }
  }

  /** Two readings come back in the order the tie ranking and their timestamps give. */
  lemma SortPair(a: Reading, b: Reading, ties: TieOrder)
    ensures SortNewestFirst([a, b], ties) == if Precedes(a, b, ties) then [a, b] else [b, a]
  {
    assert [a, b][1..] == [b];
    assert [b][1..] == [];
    assert SortNewestFirst([b], ties) == [b];
  }
}

=== FILE: text.dfy ===
/** `Array.prototype.join` and placeholder counting over SQL text. */
module Text {

  /** `parts.join(sep)`: the parts in order with `sep` between neighbours. */
  function Join(parts: seq<string>, sep: string): string
    decreases |parts|
  {
    if |parts| == 0 then ""
    else if |parts| == 1 then parts[0]
    else parts[0] + sep + Join(parts[1..], sep)
  }

  /** The number of times `c` occurs in `s`. */
  function Occurrences(c: char, s: string): nat
    decreases |s|
  {
    if |s| == 0 then 0
    else (if s[0] == c then 1 else 0) + Occurrences(c, s[1..])
  }

  lemma {:induction false} OccurrencesAppend(c: char, a: string, b: string)
    ensures Occurrences(c, a + b) == Occurrences(c, a) + Occurrences(c, b)
    decreases |a|
  {
    if |a| == 0 {
      assert a + b == b;
    } else {
      assert (a + b)[1..] == a[1..] + b;
      OccurrencesAppend(c, a[1..], b);
    }
  }

  /**
   * Joining parts that each hold `c` exactly once, with a separator that does
   * not hold it, gives a text holding `c` once per part.
   */
  lemma {:induction false} JoinOccurrences(c: char, parts: seq<string>, sep: string)
    requires forall i :: 0 <= i < |parts| ==> Occurrences(c, parts[i]) == 1
    requires Occurrences(c, sep) == 0
    ensures Occurrences(c, Join(parts, sep)) == |parts|
    decreases |parts|
  {
    if |parts| == 0 {
    } else if |parts| == 1 {
    } else {
      JoinOccurrences(c, parts[1..], sep);
      OccurrencesAppend(c, parts[0], sep);
      OccurrencesAppend(c, parts[0] + sep, Join(parts[1..], sep));
    }
  }
}

=== FILE: wrappers.dfy ===
/** Optional values and results with an error channel, used by every other module. */
module Wrappers {

  datatype Option<+T> = None | Some(value: T)

  /** The outcome of an operation that may throw: a value, or the error it surfaces. */
  datatype Result<+T, +E> = Success(value: T) | Failure(error: E)
}
